=== FILE: README.md ===
# Verified model of the gitman740 userscripts

This project models the decision logic of seven browser userscripts in Dafny and proves
properties of that model. The scripts patch YouTube, X, Medium and Audible pages. Each one is
event-driven DOM glue. Here every DOM read becomes an input value, every DOM write becomes a
field of an immutable record, and every event handler becomes a pure transition.

| file | module | script |
|---|---|---|
| common.dfy | `Common` | nullable values (`Option`) and the first-`true` search |
| text.dfy | `Text` | the JavaScript string operations used: `trim`, `includes`, `lastIndexOf`, `toLowerCase` |
| resolver.dfy | `Resolver` | `watchElementsToAction` / `waitForElements` of the subtitle-area script |
| subtitle_area.dfy | `SubtitleArea` | the subtitle-area expansion controller: rate store, recompute, click, wheel, fullscreen, intersection |
| list_search.dfy | `ListSearch` | the reply filter on `list:` search pages |
| notification_filter.dfy | `NotificationFilter` | the keyword filter for notifications, its settings and its profile-image lookup |
| bookmark_panel.dfy | `BookmarkPanel` | placement of the Medium bookmark panel and the per-article bookmark |
| skip_focus.dfy | `SkipFocus` | focusing the ad skip button, with bounded retries |
| audible_slider.dfy | `AudibleSlider` | the volume slider's reconciliation with the page's `<audio>` element |
| show_more.dfy | `ShowMore` | clicking every "show more" button on X |

Modelling conventions:

- A rate, a height, a rectangle or a volume is a `real`.
- A string is a `seq<char>`.
- A JavaScript `null` is `Option.None`.
- `localStorage` and the userscript key-value store are `map`s.
- A JavaScript exception thrown by a handler is modelled as a function that stops there. Writes made before the throw are kept. The rest of the handler is skipped.
- A timer, observer or animation-frame callback is one element of an input sequence.

Where the code behaves in ways a reader might not expect, the model follows the code:

- The startup rate is not clamped. A stored `5` gives rate `5` until the first wheel event (`SubtitleArea.StartupRateIsNotClamped`).
- With no video element, `updateSubtitleAreaExpand` throws at `video.style`. It does not quietly give up. A click then flips the state but leaves the indicator line where it was (`SubtitleArea.ClickIndicator`).
- The toggle button is added by a `doOnce` resolver call, which never subscribes because a node list is always truthy. The button therefore exists from the start when the control bar is already on the page, and never otherwise (`SubtitleArea.Initial`, `SubtitleArea.RunKeepsButtonPresence`).
- The handlers contain no "disabled" check. A disabled `<button>` receives no click, because the browser does not dispatch one. The wheel handler has no guard, so the model delivers wheel events to a disabled button.
- Both suspension sources share one reserved slot. A scroll-out during fullscreen loses the saved state (`SubtitleArea.SharedReservedSlot`).
- `waitForElements` calls the resolver in continuous mode. When the element already exists, the immediate match does not disconnect the observer it creates. That observer stays connected until a later mutation batch matches (`Resolver.WaitAlreadyPresentLeavesObserverLive`).

## Model

| member | source | states |
|---|---|---|
| `Resolver.Start` | YouTube/expand_subtitle_area.user.js:46-64 | with an action, the immediate call acts on exactly the elements already matched. It creates an observer unless an action is given and `doOnce` is set, because a `querySelectorAll` result is always truthy |
| `Resolver.Deliver` | YouTube/expand_subtitle_area.user.js:66-91 | a disconnected observer receives nothing; acted elements are only appended; a disconnected observer never reconnects |
| `Resolver.ScanDisconnectsExactly` | YouTube/expand_subtitle_area.user.js:67-89 | a batch disconnects the observer iff it holds a node with a queryable parent and either `doOnce` is set or that node's matches reach an action that disconnects |
| `Resolver.DeliverAllMonotone` | YouTube/expand_subtitle_area.user.js:66-93 | over any sequence of batches, acted elements only grow, and once disconnected the watch never changes again |
| `Resolver.DoOnceNeverSubscribes` | YouTube/expand_subtitle_area.user.js:49-64 | with `doOnce` and an action, every run acts exactly once per initially matched element, returns null and never observes, even when nothing matched |
| `Resolver.ContinuousStaysLive` | YouTube/expand_subtitle_area.user.js:67-91 | continuous mode with a non-disconnecting action stays subscribed and acts on every match of every queried node |
| `Resolver.DoOnceWithoutActionDisconnectsOnAnyNode` | YouTube/expand_subtitle_area.user.js:70-88 | `doOnce` without an action disconnects at the first queried node, even one with no match, and acts on nothing |
| `Resolver.WaitForElements` | YouTube/expand_subtitle_area.user.js:96-108 | `waitForElements` acts on every element already present and keeps its observer connected |
| `Resolver.ResolutionStable` | YouTube/expand_subtitle_area.user.js:96-114 | once the promise has a value, no later batch changes it |
| `Resolver.WaitAlreadyPresentLeavesObserverLive` | YouTube/expand_subtitle_area.user.js:49-108 | an element already present resolves the wait with the first match, and the observer stays connected |
| `Resolver.WaitResolvedByMutationDisconnects` | YouTube/expand_subtitle_area.user.js:79-105 | a wait resolved from a mutation batch disconnects its observer in that batch |
| `SubtitleArea.LoadString` | YouTube/expand_subtitle_area.user.js:31-43 | a present numeric entry is returned. Otherwise the default is returned, or null when the default is falsy |
| `SubtitleArea.StartupRate` | YouTube/expand_subtitle_area.user.js:321 | the startup rate is the stored number when numeric, else 1.1 |
| `SubtitleArea.StartupRateIsNotClamped` | YouTube/expand_subtitle_area.user.js:321 | a stored 5 is used as is; a non-numeric entry gives 1.1 |
| `SubtitleArea.AdjustedRate` | YouTube/expand_subtitle_area.user.js:169-173 | the adjusted rate is in [1.0, 1.3]. It equals `old + deltaY*0.0001` when that is in range, and otherwise saturates at the nearer bound |
| `SubtitleArea.AdjustedRateSaturates` | YouTube/expand_subtitle_area.user.js:172-173 | at 1.3 further increasing input keeps 1.3; at 1.0 further decreasing input keeps 1.0 |
| `SubtitleArea.Recompute` | YouTube/expand_subtitle_area.user.js:138-167 | no video: throws. Missing container: nothing changes. Idle: both heights cleared and the top untouched. Expanded: one container is sized (cinematic `h*rate`, or default margin with `h + margin = h*rate`), the other is cleared, and the top is 0 |
| `SubtitleArea.RecomputeIdempotent` | YouTube/expand_subtitle_area.user.js:141-166 | recomputing again with the same state and geometry changes nothing |
| `SubtitleArea.RecomputeScenarios` | YouTube/expand_subtitle_area.user.js:143-166 | at rate 1.1 a 500px video gives a 50px default margin, or a 550px cinematic container |
| `SubtitleArea.Initial` | YouTube/expand_subtitle_area.user.js:320-324 | the script starts idle, with nothing reserved and the loaded rate. An enabled button with the indicator at 60% exists iff the control bar was on the page at startup |
| `SubtitleArea.Relayout` | YouTube/expand_subtitle_area.user.js:138-167 | a handler's relayout writes exactly the styles `updateSubtitleAreaExpand` computes from the current ones, so nothing when a container is missing. It touches no other field, does nothing when the call throws, and lands on a fixed point of the recomputation |
| `SubtitleArea.Step` | YouTube/expand_subtitle_area.user.js:229-308 | no event adds or removes the button; only a wheel event touches the rate and store; only a click moves the indicator |
| `SubtitleArea.RunKeepsButtonPresence` | YouTube/expand_subtitle_area.user.js:58-63 | over any run the button is present iff it was at the start |
| `SubtitleArea.OnClick` | YouTube/expand_subtitle_area.user.js:229-244 | a click on an enabled button flips `is_expanding` and leaves the reserved state, rate, store and disabled flag alone. The styles it writes are those `updateSubtitleAreaExpand` computes for the flipped state, and none without a video. Without a button, or disabled, nothing happens |
| `SubtitleArea.OnWheel` | YouTube/expand_subtitle_area.user.js:246-252 | the rate becomes the clamped adjustment and is written to the store. The layout is then recomputed with the new rate, and nothing is written without a video. The expansion state and button are untouched |
| `SubtitleArea.OnFullscreen` | YouTube/expand_subtitle_area.user.js:263-281 | entering saves `is_expanding` and clears it, and the button becomes disabled. Exiting restores the saved value, and the button becomes enabled. With a button the layout is recomputed for the new state. Without a button the state still moves, but no style changes |
| `SubtitleArea.ScrollMoves` | YouTube/expand_subtitle_area.user.js:297-305 | the entries of one callback applied in order: the last one decides, "out" leaving the controller idle and "in" leaving it on its reserved state. The reserved slot changes only on an "out" entry |
| `SubtitleArea.OnIntersection` | YouTube/expand_subtitle_area.user.js:297-308 | the intersection callback never touches the button, rate or store. With a video every entry moves the state as `ScrollMoves` says, and the styles left are a fixed point of the recomputation. Without a video only the first entry moves the state, and no style is written |
| `SubtitleArea.ClickIndicator` | YouTube/expand_subtitle_area.user.js:231-243 | after a completed click the indicator is low iff the state is expanding; a click whose recompute throws leaves the indicator as it was |
| `SubtitleArea.OnlyClickMovesIndicator` | YouTube/expand_subtitle_area.user.js:236-242 | every other handler leaves the indicator line where it is |
| `SubtitleArea.OnlyFullscreenDisables` | YouTube/expand_subtitle_area.user.js:271-277 | every other handler leaves the button's disabled flag as it is |
| `SubtitleArea.WheelPersists` | YouTube/expand_subtitle_area.user.js:169-175 | after a wheel event the rate is in range, and reloading the store gives exactly that rate |
| `SubtitleArea.OnlyWheelChangesRate` | YouTube/expand_subtitle_area.user.js:169-175 | every other handler leaves the rate and the store unchanged |
| `SubtitleArea.StepKeepsRatePersisted` | YouTube/expand_subtitle_area.user.js:169-175 | every event keeps the invariant "rate in range and equal to the stored value" |
| `SubtitleArea.RunKeepsRatePersisted` | YouTube/expand_subtitle_area.user.js:169-175 | from a state meeting that invariant, every event sequence keeps it, so a reload restores the rate in force |
| `SubtitleArea.FullscreenRoundTrip` | YouTube/expand_subtitle_area.user.js:265-281 | entering fullscreen forces idle and disables the button; exiting right after restores the prior state and enables the button |
| `SubtitleArea.ScrollRoundTrip` | YouTube/expand_subtitle_area.user.js:297-308 | scrolling out forces idle and leaves the button alone; scrolling back right after restores the prior state |
| `SubtitleArea.SharedReservedSlot` | YouTube/expand_subtitle_area.user.js:265-308 | fullscreen-enter then scroll-out, then both resumes in either order, ends idle whatever the starting state |
| `SubtitleArea.FullscreenWithoutButton` | YouTube/expand_subtitle_area.user.js:265-281 | with no button, a fullscreen change moves the state variables but the throw skips the recompute |
| `SubtitleArea.IntersectionLastEntryDecides` | YouTube/expand_subtitle_area.user.js:298-308 | with a video present, a callback whose last entry is "out" ends idle, and two trailing "out" entries also overwrite the reserved slot with false |
| `SubtitleArea.IntersectionThrowAbandonsEntries` | YouTube/expand_subtitle_area.user.js:298-308 | without a video, only the first entry takes effect, and the styles are unchanged |
| `ListSearch.IsApplicablePage` | X/list_search_helper.user.js:37-49 | applicable iff the URL parsed, the path contains `/search`, and the lowered `q` (missing counts as empty) contains `list:` |
| `ListSearch.ApplicablePageCases` | X/list_search_helper.user.js:37-49 | `LIST:` in any case applies; a missing `q`, another path or a parse failure does not |
| `ListSearch.ApplicableExactly` | X/list_search_helper.user.js:39-44 | a parsed URL applies iff its path contains `/search` and some five characters of `q`, lowered, are `list:` |
| `ListSearch.ApplicableIgnoresCase` | X/list_search_helper.user.js:42 | lowering the query first never changes the verdict |
| `ListSearch.ApplicableNeedsQuery` | X/list_search_helper.user.js:41 | a missing `q` behaves as the empty query, and no such page applies |
| `ListSearch.LeadingText` | X/list_search_helper.user.js:56-64 | the content of the first text child in document order, untrimmed; the trimmed `innerText` when there is no text child |
| `ListSearch.LabelWithoutTextChild` | X/list_search_helper.user.js:66-75 | for a div without a text child, the second trim is harmless: it is the label iff its trimmed `innerText` is `返信先:` |
| `ListSearch.FindReplyLabelDiv` | X/list_search_helper.user.js:56-75 | returns the first div in document order whose trimmed leading text is `返信先:`, or none when no div has it |
| `ListSearch.MatchStatusPathSpec` | X/list_search_helper.user.js:83-84 | the href matches `^/seg/status/` with a non-empty, slash-free `seg` iff the match captures exactly `seg` |
| `ListSearch.MatchStatusPath` | X/list_search_helper.user.js:83-84 | a capture is a non-empty, slash-free segment, and the href starts with `/segment/status/` |
| `ListSearch.FirstStatusLink` | X/list_search_helper.user.js:80 | the position of the first anchor, in document order, whose href contains `/status/`; none iff no anchor's href does |
| `ListSearch.ExtractAuthorId` | X/list_search_helper.user.js:77-85 | null without a user-name block, without a status link, or when the first status link's href does not match. Otherwise `@` plus the captured segment |
| `ListSearch.AuthorIdFromFirstStatusLink` | X/list_search_helper.user.js:77-85 | given the first status link, the handle is `@seg` iff its href starts with `/seg/status/` for a non-empty, slash-free `seg` |
| `ListSearch.MentionOf` | X/list_search_helper.user.js:93-97 | a path link with a non-empty first segment gives `@segment`; any other path link gives its trimmed text |
| `ListSearch.Mentions` | X/list_search_helper.user.js:92-97 | every mention comes from one of the label's path links, through `MentionOf` |
| `ListSearch.MentionsAppend` | X/list_search_helper.user.js:92-97 | the mentions of consecutive runs of anchors are concatenated in document order |
| `ListSearch.MentionsOfPathLinks` | X/list_search_helper.user.js:92-97 | over path links only, there is one mention per link, in order, each being that link's `MentionOf` |
| `ListSearch.MentionsNonEmpty` | X/list_search_helper.user.js:92-97 | there is a mention iff some anchor of the label is a path link |
| `ListSearch.ExtractReplyIds` | X/list_search_helper.user.js:87-100 | no label div gives `("", [])`. Otherwise the social text is the label's trimmed `innerText`, and the mentions are those of the label's path links |
| `ListSearch.ShouldHide` | X/list_search_helper.user.js:116-141 | empty social text or no mentions is never hidden. Otherwise a self-reply (a non-empty author handle among the mentions) is hidden iff `!keepSelfReplies`, and any other reply iff `hideOtherReplies` |
| `ListSearch.Decide` | X/list_search_helper.user.js:155-166 | an article without the reply label is kept as not a reply. With the label, it is hidden iff the label text is not blank, it names someone, and the configuration hides that kind of reply (self or other) |
| `ListSearch.ReasonMatchesVerdict` | X/list_search_helper.user.js:126-140 | the verdict is "hide" iff the reason is one of the two hidden reasons |
| `ListSearch.DefaultHidesOtherReplies` | X/list_search_helper.user.js:17-19 | with the shipped configuration, exactly the replies to someone else are hidden |
| `ListSearch.IsReplyExactly` | X/list_search_helper.user.js:87-129 | an article is treated as a reply iff it has the label, the label's text is not blank, and the label holds a path link |
| `ListSearch.HideCell` | X/list_search_helper.user.js:143-153 | hiding sets aria-hidden and either `display: none` (hard hide) or the dimmed style, and nothing else |
| `ListSearch.ProcessArticle` | X/list_search_helper.user.js:155-166 | a kept article leaves its cell alone; a hidden one leaves it aria-hidden and either `display: none` or dimmed, as configured |
| `ListSearch.ProcessArticleHidesOnly` | X/list_search_helper.user.js:155-166 | processing never clears a hiding flag, is idempotent, and leaves the cell aria-hidden iff it already was or the article is to be hidden |
| `ListSearch.ScanAllHides` | X/list_search_helper.user.js:168-172 | after a scan no flag is cleared, and a cell is aria-hidden iff it was, or one of its articles is to be hidden |
| `ListSearch.ScanAll` | X/list_search_helper.user.js:168-172 | a scan changes cells in place and never adds or drops one |
| `ListSearch.ScanAllCellShape` | X/list_search_helper.user.js:155-172 | after a scan each cell is its old state, hidden once if any of its articles is to be hidden |
| `ListSearch.ScanAllIdempotent` | X/list_search_helper.user.js:168-172 | the periodic re-scan of an unchanged page changes nothing |
| `NotificationFilter.Defaults` | X/notification_filter.user.js:227-230 | the defaults are `enabled` plus every keyword, all true |
| `NotificationFilter.Merge` | X/notification_filter.user.js:226-231 | merged settings hold `enabled` and every keyword; a saved value wins where present, otherwise true |
| `NotificationFilter.MergeRoundTrip` | X/notification_filter.user.js:226-231 | merging is idempotent, so persisted merged settings reload unchanged |
| `NotificationFilter.HideList` | X/notification_filter.user.js:56 | a keyword is in the hide list iff its setting is strictly false, and the list keeps keyword order |
| `NotificationFilter.Hides` | X/notification_filter.user.js:61-74 | a cell is hidden iff some unchecked keyword hides it. A text keyword hides when the lowered text contains it; the quote label hides when the prefix is known and an image `src` contains it. Without the quote label or a prefix, only text counts |
| `NotificationFilter.Filter` | X/notification_filter.user.js:46-83 | `enabled === false` shows again exactly the `none` cells. An empty hide list changes nothing. Otherwise a cell is `none` iff it is hidden by text or by profile image, and `''` otherwise. Texts and images are never touched |
| `NotificationFilter.FilterIdempotent` | X/notification_filter.user.js:46-83 | a second pass with the same settings gives the same displays |
| `NotificationFilter.QuoteNeedsProfileImage` | X/notification_filter.user.js:64-74 | the quote label never hides by text; with no profile prefix it hides nothing |
| `NotificationFilter.ProfilePrefix` | X/notification_filter.user.js:250-255 | the prefix is the src up to its last `_`, or the whole src when it has no `_` |
| `NotificationFilter.LeadingUnderscoreDisablesQuoteCheck` | X/notification_filter.user.js:250-255 | a src whose only `_` is its first character yields an empty, and so falsy, prefix |
| `NotificationFilter.AcquirePrefix` | X/notification_filter.user.js:240-269 | the lookup uses at most 20 ticks and starts filtering at the first tick with a src, or after 20 failed ticks; the prefix is that src's prefix, or empty when the ticks ran out |
| `NotificationFilter.ShowSettings` | X/notification_filter.user.js:206-218 | the details fieldset is disabled iff `enabled` is falsy; the checkboxes show each setting's truthiness |
| `NotificationFilter.OnDetailChange` | X/notification_filter.user.js:145-149 | a keyword checkbox sets exactly that keyword's setting |
| `NotificationFilter.OnMasterChange` | X/notification_filter.user.js:140-143 | the master checkbox sets exactly `enabled` |
| `NotificationFilter.Apply` | X/notification_filter.user.js:197-201 | the settings are saved as they are, the panel is redrawn from them (`ShowSettings`), and the cells are those of one filter pass (`Filter`). A complete settings object therefore reloads unchanged, and the panel greys out iff `enabled` is falsy |
| `NotificationFilter.MergeOfComplete` | X/notification_filter.user.js:226-231 | settings holding every default key are their own merge |
| `NotificationFilter.UncheckHides` | X/notification_filter.user.js:197-201 | unchecking a text keyword hides, on that pass, every cell whose text has it, and what is persisted reloads unchanged |
| `NotificationFilter.FalsyEnabledStillFilters` | X/notification_filter.user.js:206-211 | a saved falsy non-boolean `enabled` greys out the keyword list, yet the filter stays on |
| `BookmarkPanel.PanelPosition` | Medium/medium_inner_article_bookmark.user.js:85-108 | the panel's left is `rect.left + 15` and its bottom never passes the article's bottom |
| `BookmarkPanel.PanelTopIsClamp` | Medium/medium_inner_article_bookmark.user.js:95-105 | `top = min(max(rect.top + 20, 80), rect.bottom - panelHeight)`: the header floor first, then the article ceiling |
| `BookmarkPanel.PanelBelowHeader` | Medium/medium_inner_article_bookmark.user.js:98-105 | top is at least 80 iff the article leaves room there; otherwise the bottom wins and top is below 80 |
| `BookmarkPanel.PanelUnclamped` | Medium/medium_inner_article_bookmark.user.js:95-105 | with room on both sides, the top is `rect.top + 20` unchanged |
| `BookmarkPanel.BookmarkKey` | Medium/medium_inner_article_bookmark.user.js:17 | the key is the fixed prefix followed by the pathname |
| `BookmarkPanel.BookmarkKeyInjective` | Medium/medium_inner_article_bookmark.user.js:17 | two paths sharing a key are the same path |
| `BookmarkPanel.Save` | Medium/medium_inner_article_bookmark.user.js:127-131 | saving sets this article's entry to the scroll position and keeps every other entry |
| `BookmarkPanel.Load` | Medium/medium_inner_article_bookmark.user.js:134-142 | loading alerts iff the article has no entry, and otherwise scrolls to the saved top and left |
| `BookmarkPanel.SaveLoadRoundTrip` | Medium/medium_inner_article_bookmark.user.js:127-142 | loading after saving scrolls back to the saved place, whatever other articles save in between |
| `BookmarkPanel.SaveAllKeeps` | Medium/medium_inner_article_bookmark.user.js:17 | saves on other paths neither change nor create this article's entry |
| `BookmarkPanel.AutoLoad` | Medium/medium_inner_article_bookmark.user.js:118-122 | the automatic move happens iff an entry exists, and it goes to that entry, so it never alerts |
| `SkipFocus.FindSkipButton` | YouTube/focus_skip_button.user.js:16-22 | returns the match of the earliest selector that matches, in list order, or null iff none matches |
| `SkipFocus.IsVisible` | YouTube/focus_skip_button.user.js:24-30 | false for null, display `none`, visibility `hidden` or no offset parent; true otherwise |
| `SkipFocus.FocusWithRetries` | YouTube/focus_skip_button.user.js:32-49 | at most `attempts` runs (exactly one if `attempts < 1`). It stops at the first run that finds the button visible and active, or when the budget is spent. Styling is applied exactly on the visible runs |
| `SkipFocus.FocusWithDefaultRetries` | YouTube/focus_skip_button.user.js:32-54 | with the default budget there are at most 10 runs, and it gives up after exactly 10 unless a run focused the button |
| `SkipFocus.WatchButton` | YouTube/focus_skip_button.user.js:51-65 | a visible button is focused at once. Otherwise focusing starts once, at the first attribute change that leaves the button visible, or not at all |
| `AudibleSlider.Fresh` | Audible/audible_volume.user.js:19-20 | the page before the script satisfies the bookkeeping invariant |
| `AudibleSlider.InjectStyles` | Audible/audible_volume.user.js:22-23 | a style element is added only when none exists; nothing else changes |
| `AudibleSlider.CreateSlider` | Audible/audible_volume.user.js:62-99 | one slider is added in place of the first existing one, if any. One listener is added on the audio, and the remover targets that audio |
| `AudibleSlider.InitAudio` | Audible/audible_volume.user.js:101-111 | a saved volume is applied to the audio; with none, volumes are untouched |
| `AudibleSlider.Check` | Audible/audible_volume.user.js:113-125 | no audio: nothing changes. Same audio and slider present: nothing changes. With an audio, `currentAudio` is set and a slider exists afterwards |
| `AudibleSlider.VolumeChanged` | Audible/audible_volume.user.js:87-92 | a volume change is stored iff a script listener is attached to that audio |
| `AudibleSlider.CheckConsistent` | Audible/audible_volume.user.js:113-125 | check keeps the invariant: at most one slider and style, and exactly one listener, on the current audio |
| `AudibleSlider.CheckIdempotent` | Audible/audible_volume.user.js:121-124 | a second check with the same audio does nothing |
| `AudibleSlider.RemovalRepaired` | Audible/audible_volume.user.js:113-125 | after the page drops the slider the invariant holds, and the next check rebuilds exactly one slider |
| `AudibleSlider.RunConsistent` | Audible/audible_volume.user.js:127-130 | over any run: at most one slider, one style element and one listener, and that listener is on `currentAudio` |
| `AudibleSlider.ReplacedAudioDetached` | Audible/audible_volume.user.js:98-102 | after the audio is swapped, the old element's volume changes no longer reach storage |
| `AudibleSlider.SavedVolumeApplied` | Audible/audible_volume.user.js:104-107 | on re-initialisation a saved volume is applied; without one the volumes are untouched |
| `ShowMore.ClickedButtons` | X/auto_click_more.user.js:21-38 | every clicked button belongs to a firing candidate: exact text, rendered, with an enabled enclosing button |
| `ShowMore.ClickedButtonsNonEmpty` | X/auto_click_more.user.js:22-37 | some click happens iff some candidate fires |
| `ShowMore.ClickShowMore` | X/auto_click_more.user.js:21-38 | clicks the firing candidates' buttons in candidate order, and returns true iff one fired |
| `ShowMore.NonFiringIsInert` | X/auto_click_more.user.js:27-30 | a candidate with other text, no offset parent, or a missing or disabled button causes no click |
| `ShowMore.SameButtonClickedTwice` | X/auto_click_more.user.js:25-33 | there is no de-duplication: two firing candidates in one button click it twice |

## Left out

- Aozora/aozora.user.js: it only writes CSS from settings, with a colour picker and animated scrolling, and contains no decision logic.
- DOM construction and styling are left out because they are layout, not logic. This covers the SVG toggle button, the settings panel and checkbox creation, and every `GM_addStyle` or style text.
- MutationObserver, IntersectionObserver, `setInterval`, `setTimeout` and `requestAnimationFrame` are replaced by explicit event or observation sequences. Their timing is not modelled.
- Floating point is not modelled. Rates, heights, rectangles and volumes are `real`. Not modelled: IEEE rounding, `parseInt`/`parseFloat` of style strings, `NaN` (the `NaNpx` height of a video without an inline height), and the `${}px` formatting.
- SubtitleArea.Stored: a stored string is abstracted by the number it denotes. A blank string, which `isNaN` accepts but `parseFloat` turns into `NaN`, is not represented.
- Text.ToLower: only ASCII letters are lowered. The operators and keywords compared are ASCII or Japanese, so other case mappings do not affect the comparisons.
- `new URL` parsing, JSON serialisation and the asynchronous `GM_getValue`/`GM_setValue` are abstracted as inputs and maps.
- The second, logging-only `fullscreenchange` listener (expand_subtitle_area 257-260), the promise plumbing of `waitForElements`, the attribute watcher's observer setup, and all console output are left out. The attribute watcher appears only as the `VideoAttributeChange` event.
- ListSearch: the `no-parts` branch of `shouldHide` is left out because `getTweetParts` only returns null for a null article, and articles come from `querySelectorAll`. The mutation-observer dispatch to `processArticle` is also left out.
- ListSearch.ScanAll: it requires every article's cell to be one of the page's cells. That is a well-formedness condition of the abstract page: the cell is the article or one of its ancestors.
- SubtitleArea: one toggle button is modelled. When several control bars match at startup, each gets a button and its own click handler, and `control_button` is the last one. The model does not capture the extra buttons.
- SkipFocus: `handleSkipButton` is left out. It runs on every body mutation and may start several watchers for one button.
- ShowMore: candidates are a snapshot. The model does not capture a click changing the `innerText` or layout of later candidates in the same pass.
- AudibleSlider: the slider's `input` handler is left out as a separate event. Its effect, setting the volume, is covered by `VolumeChanged`, and the value it writes to storage is the same one.
- NotificationFilter: the CSS attribute selector `img[src*="…"]` is modelled as a substring test on each image's `src`. Escaping of quotes in the prefix is not modelled.
- AudibleSlider.InitAudio: the `volumechange` event that the restore queues is not modelled. It reaches the newly attached listener, which writes back the value just restored.
- BookmarkPanel: the jQuery animation and the fade of the confirmation message are left out. A stored entry is assumed to be the script's own non-empty JSON.

=== FILE: audible_slider.dfy ===
/** The volume slider of Audible/audible_volume.user.js, as a reconciliation loop: every DOM
    mutation runs `check`, which (re)attaches a slider to the page's current `<audio>` element.
    Elements are identified by number; the page's own mutations are events of their own. */
module AudibleSlider {

  import opened Common

  /** Identity of an `<audio>` element. */
  type AudioId = nat

  datatype Page = Page(
    currentAudio: Option<AudioId>,     // currentAudio
    removeListener: Option<AudioId>,   // removeListener: detaches the listener it was created with, on this audio
    listeners: multiset<AudioId>,      // script-registered volumechange listeners still attached, by audio
    sliders: nat,                      // elements carrying the slider container's id
    styles: nat,                       // elements carrying the style element's id
    volume: map<AudioId, real>,        // each audio element's `volume`
    stored: Option<real>)              // localStorage "audible-volume-level", when set

  /** The page before the script runs. */
  function Fresh(volume: map<AudioId, real>, stored: Option<real>): (p: Page)
    ensures Consistent(p)
  {
    Page(None, None, multiset{}, 0, 0, volume, stored)
  }

  /** The bookkeeping invariant: at most one slider and one style element, and exactly the
      listener `removeListener` can detach is attached, on the current audio. */
  predicate Consistent(p: Page) {
    && p.sliders <= 1
    && p.styles <= 1
    && p.listeners == (if p.removeListener.Some? then multiset{p.removeListener.value} else multiset{})
    && (p.removeListener.Some? ==> p.removeListener == p.currentAudio)
    && (p.currentAudio.Some? ==> p.removeListener.Some?)
  }

  /** `injectStyles()` (lines 22-60): add the style element unless one is there. */
  function InjectStyles(p: Page): (p': Page)
    ensures p'.styles == (if p.styles == 0 then 1 else p.styles)
    ensures p' == p.(styles := p'.styles)
  {
    if p.styles > 0 then p else p.(styles := 1)
  }

  /** `createSlider(audio)` (lines 62-99): drop the first existing slider, append a new one and
      attach a volumechange listener to `audio`; the returned remover detaches it. */
  function CreateSlider(p: Page, audio: AudioId): (p': Page)
    ensures p'.sliders == (if p.sliders == 0 then 1 else p.sliders)
    ensures p'.listeners == p.listeners + multiset{audio}
    ensures p'.removeListener == Some(audio)
  {
    var kept := if p.sliders > 0 then p.sliders - 1 else 0;
    p.(sliders := kept + 1, listeners := p.listeners + multiset{audio}, removeListener := Some(audio))
  }

  /** `initAudio(audio)` (lines 101-111). */
  function InitAudio(p: Page, audio: AudioId): (p': Page)
    ensures p.stored.Some? ==> audio in p'.volume && p'.volume[audio] == p.stored.value
    ensures p.stored.None? ==> p'.volume == p.volume
    ensures p'.stored == p.stored && p'.currentAudio == p.currentAudio
  {
    var detached := if p.removeListener.Some? then p.(listeners := p.listeners - multiset{p.removeListener.value}) else p;
    var restored := if p.stored.Some? then detached.(volume := detached.volume[audio := p.stored.value]) else detached;
    CreateSlider(InjectStyles(restored), audio)
  }

  /** The condition of line 121. */
  predicate NeedsInit(p: Page, audio: AudioId) {
    p.currentAudio != Some(audio) || p.sliders == 0
  }

  /** `check()` (lines 113-125), given what `document.querySelector('audio')` returns. */
  function Check(p: Page, audio: Option<AudioId>): (p': Page)
    ensures audio.None? ==> p' == p
    ensures audio.Some? && !NeedsInit(p, audio.value) ==> p' == p
    ensures audio.Some? ==> p'.currentAudio == audio && p'.sliders >= 1
  {
    match audio
    case None => p
    case Some(a) => if NeedsInit(p, a) then InitAudio(p.(currentAudio := Some(a)), a) else p
  }

  /** The page re-renders and drops the slider container. */
  function PageRemovesSlider(p: Page): Page {
    p.(sliders := 0)
  }

  /** The volume of `audio` changes (through the slider, the player, or anything else): each
      attached script listener writes it to storage. */
  function VolumeChanged(p: Page, audio: AudioId, v: real): (p': Page)
    ensures audio in p'.volume && p'.volume[audio] == v
    ensures audio in p.listeners ==> p'.stored == Some(v)
    ensures audio !in p.listeners ==> p'.stored == p.stored
  {
    var p1 := p.(volume := p.volume[audio := v]);
    if audio in p.listeners then p1.(stored := Some(v)) else p1
  }

  /** Every `check` keeps the bookkeeping invariant, and leaves exactly one slider whose
      listener sits on the audio it was given. */
  lemma CheckConsistent(p: Page, audio: Option<AudioId>)
    requires Consistent(p)
    ensures Consistent(Check(p, audio))
    ensures audio.Some? ==> Check(p, audio).sliders == 1 && Check(p, audio).listeners == multiset{audio.value}
  {
    if audio.Some? && NeedsInit(p, audio.value) {
      var a := audio.value;
      var q := p.(currentAudio := Some(a));
      if p.removeListener.Some? {
        assert p.listeners - multiset{p.removeListener.value} == multiset{};
      }
    }
  }

  /** A second check with the same audio and the slider in place changes nothing. */
  lemma CheckIdempotent(p: Page, audio: Option<AudioId>)
    ensures Check(Check(p, audio), audio) == Check(p, audio)
  {
  }

  /** The page's removal of the slider keeps the invariant, and the next check rebuilds it. */
  lemma RemovalRepaired(p: Page, audio: AudioId)
    requires Consistent(p)
    ensures Consistent(PageRemovesSlider(p))
    ensures NeedsInit(PageRemovesSlider(p), audio)
    ensures Check(PageRemovesSlider(p), Some(audio)).sliders == 1
  {
  }

  /** One step of the page's life: a mutation batch (which runs `check` against the audio
      element now present), or a removal of the slider. */
  datatype Event = Mutation(audio: Option<AudioId>) | SliderRemoved

  function Step(p: Page, e: Event): Page {
    match e
    case Mutation(a) => Check(p, a)
    case SliderRemoved => PageRemovesSlider(p)
  }

  function Run(p: Page, evs: seq<Event>): Page
    decreases |evs|
  {
    if |evs| == 0 then p else Run(Step(p, evs[0]), evs[1..])
  }

  /** Over any run from a fresh page: at most one slider and one style element, and at most
      one script listener, attached to the current audio. */
  lemma {:induction false} RunConsistent(p: Page, evs: seq<Event>)
    requires Consistent(p)
    ensures Consistent(Run(p, evs))
    ensures Run(p, evs).sliders <= 1 && Run(p, evs).styles <= 1
    ensures |Run(p, evs).listeners| <= 1
    ensures forall a :: a in Run(p, evs).listeners ==> Run(p, evs).currentAudio == Some(a)
    decreases |evs|
  {
    if |evs| > 0 {
      if evs[0].Mutation? {
        CheckConsistent(p, evs[0].audio);
      }
      RunConsistent(Step(p, evs[0]), evs[1..]);
    }
  }

  /** Once the player swaps its audio element, the old element's volume changes no longer
      reach storage: its listener was detached at re-initialisation. */
  lemma ReplacedAudioDetached(p: Page, previous: AudioId, next: AudioId, v: real)
    requires Consistent(p) && p.currentAudio == Some(previous) && previous != next
    ensures VolumeChanged(Check(p, Some(next)), previous, v).stored == Check(p, Some(next)).stored
  {
    CheckConsistent(p, Some(next));
  }

  /** A stored volume is applied to a newly attached audio element; without one, its volume is left alone. */
  lemma SavedVolumeApplied(p: Page, a: AudioId)
    requires NeedsInit(p, a)
    ensures p.stored.Some? ==> Check(p, Some(a)).volume[a] == p.stored.value
    ensures p.stored.None? ==> Check(p, Some(a)).volume == p.volume
  {
  }
}

=== FILE: bookmark_panel.dfy ===
/** The reading bookmark of Medium/medium_inner_article_bookmark.user.js: a floating panel kept
    inside the article's box, and one saved scroll position per article path. */
module BookmarkPanel {

  import opened Common

  /** Room kept free for the site's sticky header. */
  const HeaderOffset: real := 80.0
  /** The panel sits this far right of the article's left edge... */
  const LeftInset: real := 15.0
  /** ...and this far below its top edge, when there is room. */
  const TopInset: real := 20.0

  const KeyPrefix: string := "medium_article_bookmark_"

  /** The article's bounding client rectangle, as far as it is read. */
  datatype Rect = Rect(left: real, top: real, bottom: real)

  /** The panel's `left` and `top`, in viewport pixels. */
  datatype Placement = Placement(left: real, top: real)

  /** `updatePanelPosition()` (lines 85-108): start just inside the article, push below the
      header, then pull back up so the panel does not run past the article's bottom. */
  function PanelPosition(rect: Rect, panelHeight: real): (p: Placement)
    ensures p.left == rect.left + LeftInset
    ensures p.top + panelHeight <= rect.bottom
  {
    var top0 := rect.top + TopInset;
    var top1 := if top0 < HeaderOffset then HeaderOffset else top0;
    var top2 := if top1 + panelHeight > rect.bottom then rect.bottom - panelHeight else top1;
    Placement(rect.left + LeftInset, top2)
  }

  function Min(a: real, b: real): real { if a <= b then a else b }
  function Max(a: real, b: real): real { if a >= b then a else b }

  /** The two adjustments compose as a clamp with the floor applied first: when the article is
      too short for both, the bottom edge wins. */
  lemma PanelTopIsClamp(rect: Rect, panelHeight: real)
    ensures PanelPosition(rect, panelHeight).top ==
      Min(Max(rect.top + TopInset, HeaderOffset), rect.bottom - panelHeight)
  {
  }

  /** The panel stays below the header exactly when the article leaves room for it there. */
  lemma PanelBelowHeader(rect: Rect, panelHeight: real)
    ensures rect.bottom - panelHeight >= HeaderOffset ==> PanelPosition(rect, panelHeight).top >= HeaderOffset
    ensures rect.bottom - panelHeight < HeaderOffset ==> PanelPosition(rect, panelHeight).top < HeaderOffset
  {
  }

  /** With room on both sides, the panel keeps its natural place inside the article. */
  lemma PanelUnclamped(rect: Rect, panelHeight: real)
    requires HeaderOffset <= rect.top + TopInset <= rect.bottom - panelHeight
    ensures PanelPosition(rect, panelHeight).top == rect.top + TopInset
  {
  }

  // ---------------------------------------------------------------- saved positions

  /** A saved scroll position: `{ top: scrollTop, left: scrollLeft }`. */
  datatype Position = Position(top: real, left: real)

  /** `localStorage`, restricted to the bookmark entries (each one a serialised `Position`). */
  type Store = map<string, Position>

  /** `BOOKMARK_KEY` (line 17): one entry per article path. */
  function BookmarkKey(pathname: string): (k: string)
    ensures |k| == |KeyPrefix| + |pathname|
    ensures KeyPrefix <= k && k[|KeyPrefix|..] == pathname
  {
    KeyPrefix + pathname
  }

  /** Different articles never share an entry. */
  lemma BookmarkKeyInjective(p1: string, p2: string)
    requires BookmarkKey(p1) == BookmarkKey(p2)
    ensures p1 == p2
  {
    assert p1 == BookmarkKey(p1)[|KeyPrefix|..];
  }

  /** The "save" button (lines 127-131). */
  function Save(store: Store, pathname: string, scroll: Position): (s': Store)
    ensures BookmarkKey(pathname) in s' && s'[BookmarkKey(pathname)] == scroll
    ensures forall k :: k in store && k != BookmarkKey(pathname) ==> k in s' && s'[k] == store[k]
  {
    store[BookmarkKey(pathname) := scroll]
  }

  /** What the "move" button does: tell the reader there is nothing saved, or scroll. */
  datatype LoadEffect = NoBookmarkAlert | ScrollTo(target: Position)

  /** The "move" button (lines 134-142). */
  function Load(store: Store, pathname: string): (e: LoadEffect)
    ensures e.NoBookmarkAlert? <==> BookmarkKey(pathname) !in store
    ensures e.ScrollTo? ==> e.target == store[BookmarkKey(pathname)]
  {
    if BookmarkKey(pathname) in store then ScrollTo(store[BookmarkKey(pathname)]) else NoBookmarkAlert
  }

  /** Moving after saving returns to the saved place, whatever other articles saved meanwhile. */
  lemma SaveLoadRoundTrip(store: Store, pathname: string, scroll: Position, others: seq<(string, Position)>)
    requires forall k :: 0 <= k < |others| ==> others[k].0 != pathname
    ensures Load(SaveAll(Save(store, pathname, scroll), others), pathname) == ScrollTo(scroll)
  {
    SaveAllKeeps(Save(store, pathname, scroll), others, pathname);
  }

  /** Saves on several article paths, in order. */
  function SaveAll(store: Store, saves: seq<(string, Position)>): Store
    decreases |saves|
  {
    if |saves| == 0 then store else SaveAll(Save(store, saves[0].0, saves[0].1), saves[1..])
  }

  /** Saves on other paths leave an article's entry alone. */
  lemma {:induction false} SaveAllKeeps(store: Store, saves: seq<(string, Position)>, pathname: string)
    requires forall k :: 0 <= k < |saves| ==> saves[k].0 != pathname
    ensures BookmarkKey(pathname) in store ==>
      BookmarkKey(pathname) in SaveAll(store, saves) && SaveAll(store, saves)[BookmarkKey(pathname)] == store[BookmarkKey(pathname)]
    ensures BookmarkKey(pathname) !in store ==> BookmarkKey(pathname) !in SaveAll(store, saves)
    decreases |saves|
  {
    if |saves| > 0 {
      if BookmarkKey(saves[0].0) == BookmarkKey(pathname) {
        BookmarkKeyInjective(saves[0].0, pathname);
      }
      SaveAllKeeps(Save(store, saves[0].0, saves[0].1), saves[1..], pathname);
    }
  }

  /** On mounting (lines 118-122) the move button is clicked automatically only when the
      article has an entry: the place it scrolls to, or `None` when nothing is clicked. The
      automatic move therefore never alerts. */
  function AutoLoad(store: Store, pathname: string): (target: Option<Position>)
    ensures target.Some? <==> BookmarkKey(pathname) in store
    ensures target.Some? ==> Load(store, pathname) == ScrollTo(target.value)
  {
    if BookmarkKey(pathname) in store then Some(Load(store, pathname).target) else None
  }
}

=== FILE: common.dfy ===
/** Small shared vocabulary: the nullable values that the scripts pass around. */
module Common {

  /** A JavaScript value that may be `null`: `None` stands for `null`. */
  datatype Option<+T> = None | Some(value: T) {

    /** The value, or `default` when this is `None` (the `x || default` idiom for non-falsy values). */
    function GetOr(default: T): T {
      match this
      case Some(v) => v
      case None => default
    }
  }

  /** The position of the first `true`. */
  function FirstTrue(flags: seq<bool>): (r: Option<nat>)
    ensures r.None? <==> forall k :: 0 <= k < |flags| ==> !flags[k]
    ensures r.Some? ==> r.value < |flags| && flags[r.value]
    ensures r.Some? ==> forall k :: 0 <= k < r.value ==> !flags[k]
  {
    if |flags| == 0 then None
    else if flags[0] then Some(0)
    else
      match FirstTrue(flags[1..])
      case None => None
      case Some(i) => Some(i + 1)
  }
}

=== FILE: list_search.dfy ===
/** The reply filter of X/list_search_helper.user.js: on a `list:` search page, replies are
    hidden according to who they answer. The article's DOM is abstracted to the few things the
    script reads from it. */
module ListSearch {

  import opened Common
  import opened Text

  /** The text of the "Replying to" label in the Japanese interface. */
  const ReplyLabel: string := "返信先:"

  // ---------------------------------------------------------------- page check

  /** `new URL(location.href)`: the pathname and the `q` search parameter, or a parse failure. */
  datatype Url = Url(pathname: string, q: Option<string>) | Unparseable

  /** `isApplicablePage()` (lines 37-49). */
  function IsApplicablePage(u: Url): (r: bool)
    ensures r ==> u.Url? && Contains(u.pathname, "/search")
    ensures u.Url? ==> (r <==> Contains(u.pathname, "/search") && Contains(ToLower(u.q.GetOr("")), "list:"))
  {
    match u
    case Unparseable => false
    case Url(pathname, q) => Contains(pathname, "/search") && Contains(ToLower(q.GetOr("")), "list:")
  }

  /** The operator is recognised in any letter case; no query or a failed parse never applies. */
  lemma ApplicablePageCases()
    ensures IsApplicablePage(Url("/search", Some("LIST:123 cats")))
    ensures !IsApplicablePage(Url("/search", None))
    ensures !IsApplicablePage(Url("/home", Some("list:1")))
    ensures !IsApplicablePage(Unparseable)
  {
    assert ToLower("LIST:123 cats")[..5] == "list:";
    ContainsAt(ToLower("LIST:123 cats"), "list:", 0);
    ContainsAt("/search", "/search", 0);
    assert !Contains("", "list:");
    assert !Contains("/home", "/search");
  }

  /** The `list:` operator written at position `i` of the query, in any letter case. */
  predicate OperatorAt(q: string, i: int) {
    0 <= i && i + 5 <= |q| && ToLower(q[i..i + 5]) == "list:"
  }

  /** The page check read declaratively: a parsed URL whose path contains "/search" and whose
      query has the operator somewhere, in any letter case. */
  lemma ApplicableExactly(pathname: string, q: string)
    ensures IsApplicablePage(Url(pathname, Some(q))) <==>
      Contains(pathname, "/search") && exists i :: OperatorAt(q, i)
  {
    if Contains(ToLower(q), "list:") {
      var i :| 0 <= i <= |ToLower(q)| && "list:" <= ToLower(q)[i..];
      assert ToLower(q[i..i + 5]) == ToLower(q)[i..i + 5];
      assert OperatorAt(q, i);
    }
    if exists i :: OperatorAt(q, i) {
      var i :| OperatorAt(q, i);
      assert ToLower(q)[i..][..5] == ToLower(q[i..i + 5]);
      ContainsAt(ToLower(q), "list:", i);
    }
  }

  /** Lowering the query first changes nothing: the check ignores letter case. */
  lemma ApplicableIgnoresCase(pathname: string, q: string)
    ensures IsApplicablePage(Url(pathname, Some(q))) == IsApplicablePage(Url(pathname, Some(ToLower(q))))
  {
    ToLowerIdempotent(q);
  }

  /** A missing `q` parameter counts as the empty query, which never holds the operator. */
  lemma ApplicableNeedsQuery(pathname: string)
    ensures IsApplicablePage(Url(pathname, None)) == IsApplicablePage(Url(pathname, Some("")))
    ensures !IsApplicablePage(Url(pathname, None))
  {
    assert !Contains("", "list:");
  }

  // ---------------------------------------------------------------- the article, abstracted

  /** A child node of an element: a text node with its content, or anything else. */
  datatype ChildNode = TextNode(content: string) | OtherNode

  /** An `<a>` element: its `href` attribute (`getAttribute`) and its `textContent`. */
  datatype Anchor = Anchor(href: Option<string>, text: string)

  /** A `<div>`: its child nodes, its `innerText`, and the `<a>` elements inside it in document order. */
  datatype Div = Div(children: seq<ChildNode>, innerText: string, anchors: seq<Anchor>)

  /** An article: its `<div>` elements in document order, and the anchors of its first
      `div[data-testid="User-Name"]` block when there is one. */
  datatype Article = Article(divs: seq<Div>, userName: Option<seq<Anchor>>)

  /** Content of the first text-node child. */
  function FirstText(children: seq<ChildNode>): (r: Option<string>)
    ensures r.None? <==> forall k :: 0 <= k < |children| ==> !children[k].TextNode?
    ensures r.Some? ==> TextNode(r.value) in children
    ensures forall k :: 0 <= k < |children| && children[k].TextNode? && (forall j :: 0 <= j < k ==> !children[j].TextNode?) ==>
      r == Some(children[k].content)
  {
    if |children| == 0 then None
    else if children[0].TextNode? then Some(children[0].content)
    else FirstText(children[1..])
  }

  /** `leadingText(el)` (lines 56-64): the first text child's content, else the trimmed `innerText`. */
  function LeadingText(d: Div): (t: string)
    ensures (forall k :: 0 <= k < |d.children| ==> !d.children[k].TextNode?) ==> t == Trim(d.innerText)
    ensures forall k :: 0 <= k < |d.children| && d.children[k].TextNode? && (forall j :: 0 <= j < k ==> !d.children[j].TextNode?) ==>
      t == d.children[k].content
  {
    match FirstText(d.children)
    case Some(t) => t
    case None => Trim(d.innerText)
  }

  /** The div that is the reply label. */
  predicate IsLabel(d: Div) {
    Trim(LeadingText(d)) == ReplyLabel
  }

  /** A div without a text child is the label iff its trimmed `innerText` is: the second `trim`
      of line 69 changes nothing there. Only a leading text node is compared untrimmed-then-trimmed. */
  lemma LabelWithoutTextChild(d: Div)
    requires forall k :: 0 <= k < |d.children| ==> !d.children[k].TextNode?
    ensures IsLabel(d) <==> Trim(d.innerText) == ReplyLabel
  {
    assert FirstText(d.children).None?;
    assert LeadingText(d) == Trim(d.innerText);
    TrimIdempotent(d.innerText);
  }

  /** `findReplyLabelDiv(article)` (lines 66-75): the first div in document order whose trimmed
      leading text is the reply label. */
  function FindReplyLabelDiv(divs: seq<Div>): (r: Option<nat>)
    ensures r.None? <==> forall k :: 0 <= k < |divs| ==> !IsLabel(divs[k])
    ensures r.Some? ==> r.value < |divs| && IsLabel(divs[r.value])
    ensures r.Some? ==> forall k :: 0 <= k < r.value ==> !IsLabel(divs[k])
  {
    var flags := seq(|divs|, k requires 0 <= k < |divs| => IsLabel(divs[k]));
    assert forall k :: 0 <= k < |divs| ==> flags[k] == IsLabel(divs[k]);
    FirstTrue(flags)
  }

  // ---------------------------------------------------------------- handles from hrefs

  /** The longest prefix of `s` without a '/'. */
  function Segment(s: string): (r: string)
    ensures r <= s
    ensures forall k :: 0 <= k < |r| ==> r[k] != '/'
    ensures |r| < |s| ==> s[|r|] == '/'
  {
    if |s| == 0 || s[0] == '/' then [] else [s[0]] + Segment(s[1..])
  }

  /** `href.match(/^\/([^\/]+)\/status\//)`: the captured segment, or `None` for no match. */
  function MatchStatusPath(href: string): (r: Option<string>)
    ensures r.Some? ==> |r.value| > 0 && (forall k :: 0 <= k < |r.value| ==> r.value[k] != '/')
    ensures r.Some? ==> "/" + r.value + "/status/" <= href
  {
    if |href| == 0 || href[0] != '/' then None
    else
      var seg := Segment(href[1..]);
      if |seg| > 0 && "/status/" <= href[1 + |seg|..] then
        assert href[1..][..|seg|] == seg;
        assert href[1 + |seg|..][..8] == "/status/";
        assert href[..|seg| + 9] == "/" + seg + "/status/";
        Some(seg)
      else None
  }

  /** The regular expression, read declaratively: the href starts with '/', a non-empty
      segment without '/', and "/status/". `MatchStatusPath` captures exactly that segment. */
  lemma MatchStatusPathSpec(href: string, seg: string)
    ensures MatchStatusPath(href) == Some(seg) <==>
      |seg| > 0 && (forall k :: 0 <= k < |seg| ==> seg[k] != '/') && "/" + seg + "/status/" <= href
  {
    if MatchStatusPath(href) == Some(seg) {
      assert href[1..][..|seg|] == seg;
      assert href[1 + |seg|..][..8] == "/status/";
      assert href[..|seg| + 9] == "/" + seg + "/status/";
    }
    if |seg| > 0 && (forall k :: 0 <= k < |seg| ==> seg[k] != '/') && "/" + seg + "/status/" <= href {
      assert seg <= href[1..];
      assert href[1..][|seg|] == '/';
      SegmentOfPrefix(href[1..], seg);
      assert href[1 + |seg|..][..8] == "/status/";
    }
  }

  /** A '/'-free prefix followed by '/' is the segment. */
  lemma {:induction false} SegmentOfPrefix(s: string, seg: string)
    requires seg <= s && |seg| < |s| && s[|seg|] == '/'
    requires forall k :: 0 <= k < |seg| ==> seg[k] != '/'
    ensures Segment(s) == seg
  {
    if |seg| > 0 {
      SegmentOfPrefix(s[1..], seg[1..]);
    }
  }

  /** An anchor matched by `a[href*="/status/"]`. */
  predicate IsStatusLink(a: Anchor) {
    a.href.Some? && Contains(a.href.value, "/status/")
  }

  /** `querySelector('a[href*="/status/"]')`: the position of the first status link in document order. */
  function FirstStatusLink(anchors: seq<Anchor>): (r: Option<nat>)
    ensures r.None? <==> forall k :: 0 <= k < |anchors| ==> !IsStatusLink(anchors[k])
    ensures r.Some? ==> r.value < |anchors| && IsStatusLink(anchors[r.value])
    ensures r.Some? ==> forall k :: 0 <= k < r.value ==> !IsStatusLink(anchors[k])
  {
    var flags := seq(|anchors|, k requires 0 <= k < |anchors| => IsStatusLink(anchors[k]));
    assert forall k :: 0 <= k < |anchors| ==> flags[k] == IsStatusLink(anchors[k]);
    FirstTrue(flags)
  }

  /** `extractAuthorId(article)` (lines 77-85): "@" and the segment captured from the first
      status link's href; null without a user-name block, a status link, or a match. */
  function ExtractAuthorId(userName: Option<seq<Anchor>>): (r: Option<string>)
    ensures userName.None? ==> r.None?
    ensures userName.Some? && FirstStatusLink(userName.value).None? ==> r.None?
    ensures r.Some? <==>
      && userName.Some? && FirstStatusLink(userName.value).Some?
      && MatchStatusPath(userName.value[FirstStatusLink(userName.value).value].href.value).Some?
    ensures r.Some? ==> r.value == "@" + MatchStatusPath(userName.value[FirstStatusLink(userName.value).value].href.value).value
    ensures r.Some? ==> exists seg :: r.value == "@" + seg && |seg| > 0
  {
    match userName
    case None => None
    case Some(anchors) =>
      match FirstStatusLink(anchors)
      case None => None
      case Some(i) =>
        match MatchStatusPath(anchors[i].href.value)
        case None => None
        case Some(seg) => Some("@" + seg)
  }

  /** The handle comes from the first status link: it is "@" + `seg` exactly when that link's
      href starts with `/seg/status/` for a non-empty, slash-free `seg`. */
  lemma AuthorIdFromFirstStatusLink(anchors: seq<Anchor>, i: nat, seg: string)
    requires i < |anchors| && IsStatusLink(anchors[i])
    requires forall k :: 0 <= k < i ==> !IsStatusLink(anchors[k])
    ensures ExtractAuthorId(Some(anchors)) == Some("@" + seg) <==>
      |seg| > 0 && (forall k :: 0 <= k < |seg| ==> seg[k] != '/') && "/" + seg + "/status/" <= anchors[i].href.value
  {
    assert FirstStatusLink(anchors) == Some(i);
    MatchStatusPathSpec(anchors[i].href.value, seg);
    if ExtractAuthorId(Some(anchors)) == Some("@" + seg) {
      var m := MatchStatusPath(anchors[i].href.value).value;
      assert m == ("@" + m)[1..] == ("@" + seg)[1..] == seg;
    }
  }

  /** The anchors matched by `a[href^='/']`. */
  predicate IsPathLink(a: Anchor) {
    a.href.Some? && "/" <= a.href.value
  }

  /** One reply mention (lines 93-97): "@" and the href's first path segment, or the link's
      trimmed text when that segment is empty. */
  function MentionOf(a: Anchor): (m: string)
    ensures IsPathLink(a) && |a.href.value| > 1 && a.href.value[1] != '/' ==>
      m == "@" + Segment(a.href.value[1..]) && |m| > 1
    ensures IsPathLink(a) && !(|a.href.value| > 1 && a.href.value[1] != '/') ==> m == Trim(a.text)
  {
    var href := a.href.GetOr("");
    if |href| > 1 && href[0] == '/' && href[1] != '/' then "@" + Segment(href[1..]) else Trim(a.text)
  }

  /** The mentions of the label's path links, in document order. */
  function Mentions(anchors: seq<Anchor>): (ms: seq<string>)
    ensures |ms| <= |anchors|
    ensures forall m :: m in ms ==> exists a :: a in anchors && IsPathLink(a) && MentionOf(a) == m
  {
    if |anchors| == 0 then []
    else (if IsPathLink(anchors[0]) then [MentionOf(anchors[0])] else []) + Mentions(anchors[1..])
  }

  /** The mentions of consecutive runs of anchors are concatenated in document order. */
  lemma {:induction false} MentionsAppend(a: seq<Anchor>, b: seq<Anchor>)
    ensures Mentions(a + b) == Mentions(a) + Mentions(b)
  {
    if |a| > 0 {
      assert (a + b)[0] == a[0];
      assert (a + b)[1..] == a[1..] + b;
      MentionsAppend(a[1..], b);
    } else {
      assert a + b == b;
    }
  }

  /** When every anchor is a path link, the mentions are exactly their mentions, one per anchor, in order. */
  lemma {:induction false} MentionsOfPathLinks(anchors: seq<Anchor>)
    requires forall k :: 0 <= k < |anchors| ==> IsPathLink(anchors[k])
    ensures |Mentions(anchors)| == |anchors|
    ensures forall k :: 0 <= k < |anchors| ==> Mentions(anchors)[k] == MentionOf(anchors[k])
  {
    if |anchors| > 0 {
      MentionsOfPathLinks(anchors[1..]);
    }
  }

  /** There is a mention exactly when some anchor is a path link. */
  lemma {:induction false} MentionsNonEmpty(anchors: seq<Anchor>)
    ensures Mentions(anchors) != [] <==> exists k :: 0 <= k < |anchors| && IsPathLink(anchors[k])
  {
    if |anchors| > 0 {
      MentionsNonEmpty(anchors[1..]);
      if exists k :: 0 <= k < |anchors[1..]| && IsPathLink(anchors[1..][k]) {
        var k :| 0 <= k < |anchors[1..]| && IsPathLink(anchors[1..][k]);
        assert anchors[k + 1] == anchors[1..][k];
      }
      forall k | 1 <= k < |anchors| ensures anchors[k] == anchors[1..][k - 1] { }
    }
  }

  /** `extractReplyIds(article)` (lines 87-100): the label's trimmed text and its mentions. */
  function ExtractReplyIds(divs: seq<Div>): (r: (string, seq<string>))
    ensures FindReplyLabelDiv(divs).None? ==> r == ("", [])
    ensures FindReplyLabelDiv(divs).Some? ==> r.0 == Trim(divs[FindReplyLabelDiv(divs).value].innerText)
    ensures FindReplyLabelDiv(divs).Some? ==> r.1 == Mentions(divs[FindReplyLabelDiv(divs).value].anchors)
  {
    match FindReplyLabelDiv(divs)
    case None => ("", [])
    case Some(i) => (Trim(divs[i].innerText), Mentions(divs[i].anchors))
  }

  // ---------------------------------------------------------------- decision

  /** The script's `CONFIG` switches that affect hiding. */
  datatype Config = Config(keepSelfReplies: bool, hideOtherReplies: bool, hardHide: bool)

  const DefaultConfig := Config(true, true, true)

  datatype Reason = NotAReply | SelfReplyKept | SelfReplyHidden | OtherReplyHidden | OtherReplyKept

  datatype Decision = Decision(hide: bool, reason: Reason)

  /** An answer to oneself: the author is known (a non-empty, so truthy, handle) and appears
      among the mentions. */
  predicate IsSelfReply(author: Option<string>, mentions: seq<string>) {
    author.Some? && author.value != "" && author.value in mentions
  }

  /** `shouldHide` (lines 116-141), over the parts it reads. */
  function ShouldHide(author: Option<string>, socialText: string, mentions: seq<string>, cfg: Config): (d: Decision)
    ensures socialText == "" || mentions == [] ==> d == Decision(false, NotAReply)
    ensures socialText != "" && mentions != [] ==>
      (d.hide <==> if IsSelfReply(author, mentions) then !cfg.keepSelfReplies else cfg.hideOtherReplies)
    ensures d.reason in {SelfReplyKept, SelfReplyHidden} <==>
      socialText != "" && mentions != [] && IsSelfReply(author, mentions)
  {
    if socialText == "" || |mentions| == 0 then Decision(false, NotAReply)
    else if IsSelfReply(author, mentions) then
      if cfg.keepSelfReplies then Decision(false, SelfReplyKept) else Decision(true, SelfReplyHidden)
    else
      if cfg.hideOtherReplies then Decision(true, OtherReplyHidden) else Decision(false, OtherReplyKept)
  }

  /** The reason always agrees with the verdict. */
  lemma ReasonMatchesVerdict(author: Option<string>, socialText: string, mentions: seq<string>, cfg: Config)
    ensures ShouldHide(author, socialText, mentions, cfg).hide <==>
      ShouldHide(author, socialText, mentions, cfg).reason in {SelfReplyHidden, OtherReplyHidden}
  {
  }

  /** The decision `processArticle` takes for one article: its parts are read off, then judged
      by `shouldHide`. */
  function Decide(a: Article, cfg: Config): (d: Decision)
    // an article without the reply label is not a reply and is kept
    ensures FindReplyLabelDiv(a.divs).None? ==> d == Decision(false, NotAReply)
    // with the label, it is hidden iff the label's trimmed text is not blank, it names someone,
    // and the configuration hides that kind of reply
    ensures FindReplyLabelDiv(a.divs).Some? ==>
      var tag := a.divs[FindReplyLabelDiv(a.divs).value];
      (d.hide <==>
        && Trim(tag.innerText) != ""
        && Mentions(tag.anchors) != []
        && if IsSelfReply(ExtractAuthorId(a.userName), Mentions(tag.anchors)) then !cfg.keepSelfReplies
           else cfg.hideOtherReplies)
  {
    var (socialText, mentions) := ExtractReplyIds(a.divs);
    ShouldHide(ExtractAuthorId(a.userName), socialText, mentions, cfg)
  }

  /** With the default configuration exactly the replies to others are hidden. */
  lemma DefaultHidesOtherReplies(a: Article)
    ensures Decide(a, DefaultConfig).hide <==>
      var (socialText, mentions) := ExtractReplyIds(a.divs);
      socialText != "" && mentions != [] && !IsSelfReply(ExtractAuthorId(a.userName), mentions)
  {
  }

  /** An article is treated as a reply exactly when it has the label, the label's text is not
      blank, and the label holds at least one path link. */
  lemma IsReplyExactly(a: Article, cfg: Config)
    ensures Decide(a, cfg).reason != NotAReply <==>
      && FindReplyLabelDiv(a.divs).Some?
      && Trim(a.divs[FindReplyLabelDiv(a.divs).value].innerText) != ""
      && exists k :: 0 <= k < |a.divs[FindReplyLabelDiv(a.divs).value].anchors| &&
           IsPathLink(a.divs[FindReplyLabelDiv(a.divs).value].anchors[k])
  {
    if FindReplyLabelDiv(a.divs).Some? {
      MentionsNonEmpty(a.divs[FindReplyLabelDiv(a.divs).value].anchors);
    }
  }

  // ---------------------------------------------------------------- cells

  /** The inline state of a timeline cell the script can write. */
  datatype Cell = Cell(displayNone: bool, dimmed: bool, ariaHidden: bool)

  /** `hideCell(cell)` (lines 143-153): `display: none`, or opacity 0.25 without pointer events. */
  function HideCell(c: Cell, hardHide: bool): (c': Cell)
    ensures c'.ariaHidden
    ensures hardHide ==> c'.displayNone && c'.dimmed == c.dimmed
    ensures !hardHide ==> c'.dimmed && c'.displayNone == c.displayNone
  {
    if hardHide then c.(displayNone := true, ariaHidden := true)
    else c.(dimmed := true, ariaHidden := true)
  }

  /** `processArticle(article)` (lines 155-166) on the article's cell. */
  function ProcessArticle(a: Article, c: Cell, cfg: Config): (c': Cell)
    ensures !Decide(a, cfg).hide ==> c' == c
    ensures Decide(a, cfg).hide ==> c'.ariaHidden && (if cfg.hardHide then c'.displayNone else c'.dimmed)
  {
    if Decide(a, cfg).hide then HideCell(c, cfg.hardHide) else c
  }

  /** One cell only ever gains hiding flags. */
  predicate NoLessHidden(c: Cell, c': Cell) {
    (c.displayNone ==> c'.displayNone) && (c.dimmed ==> c'.dimmed) && (c.ariaHidden ==> c'.ariaHidden)
  }

  /** Processing hides or leaves alone, never restores; hiding again changes nothing. */
  lemma ProcessArticleHidesOnly(a: Article, c: Cell, cfg: Config)
    ensures NoLessHidden(c, ProcessArticle(a, c, cfg))
    ensures ProcessArticle(a, ProcessArticle(a, c, cfg), cfg) == ProcessArticle(a, c, cfg)
    ensures ProcessArticle(a, c, cfg).ariaHidden <==> c.ariaHidden || Decide(a, cfg).hide
  {
  }

  /** `scanAll()` (lines 168-172): every article processed in document order, each on the cell
      that holds it (the enclosing `cellInnerDiv`, or the article itself). */
  function ScanAll(articles: seq<(Article, nat)>, cells: map<nat, Cell>, cfg: Config): (r: map<nat, Cell>)
    requires forall k :: 0 <= k < |articles| ==> articles[k].1 in cells
    ensures r.Keys == cells.Keys
    decreases |articles|
  {
    if |articles| == 0 then cells
    else
      var (a, id) := articles[0];
      ScanAll(articles[1..], cells[id := ProcessArticle(a, cells[id], cfg)], cfg)
  }

  /** After a scan, a cell is marked hidden exactly when it already was or one of its articles
      is to be hidden; no flag is ever cleared. */
  lemma ScanAllHides(articles: seq<(Article, nat)>, cells: map<nat, Cell>, cfg: Config, id: nat)
    requires forall k :: 0 <= k < |articles| ==> articles[k].1 in cells
    requires id in cells
    ensures NoLessHidden(cells[id], ScanAll(articles, cells, cfg)[id])
    ensures ScanAll(articles, cells, cfg)[id].ariaHidden <==>
      cells[id].ariaHidden || exists k :: 0 <= k < |articles| && articles[k].1 == id && Decide(articles[k].0, cfg).hide
  {
    ScanAllCellShape(articles, cells, cfg, id);
  }

  /** Scanning the same page twice leaves it as scanning it once (the periodic re-scan is harmless). */
  lemma {:induction false} ScanAllIdempotent(articles: seq<(Article, nat)>, cells: map<nat, Cell>, cfg: Config)
    requires forall k :: 0 <= k < |articles| ==> articles[k].1 in cells
    ensures ScanAll(articles, ScanAll(articles, cells, cfg), cfg) == ScanAll(articles, cells, cfg)
  {
    var once := ScanAll(articles, cells, cfg);
    var twice := ScanAll(articles, once, cfg);
    forall id | id in cells
      ensures twice[id] == once[id]
    {
      ScanAllCellShape(articles, cells, cfg, id);
      ScanAllCellShape(articles, once, cfg, id);
    }
  }

  /** Some article held by cell `id` is to be hidden. */
  predicate Hit(articles: seq<(Article, nat)>, id: nat, cfg: Config) {
    exists k :: 0 <= k < |articles| && articles[k].1 == id && Decide(articles[k].0, cfg).hide
  }

  /** A hit is in the first article or in the rest. */
  lemma HitSplit(articles: seq<(Article, nat)>, id: nat, cfg: Config)
    requires |articles| > 0
    ensures Hit(articles, id, cfg) <==>
      (articles[0].1 == id && Decide(articles[0].0, cfg).hide) || Hit(articles[1..], id, cfg)
  {
    if Hit(articles[1..], id, cfg) {
      var k :| 0 <= k < |articles[1..]| && articles[1..][k].1 == id && Decide(articles[1..][k].0, cfg).hide;
      assert articles[k + 1] == articles[1..][k];
    }
    if Hit(articles, id, cfg) {
      var k :| 0 <= k < |articles| && articles[k].1 == id && Decide(articles[k].0, cfg).hide;
      if k > 0 {
        assert articles[1..][k - 1] == articles[k];
      }
    }
  }

  /** Hiding an already hidden cell changes nothing. */
  lemma HideCellIdempotent(c: Cell, hardHide: bool)
    ensures HideCell(HideCell(c, hardHide), hardHide) == HideCell(c, hardHide)
  {
  }

  /** Each flag of a scanned cell is its old value, or-ed with "some article here was hidden"
      under the configured hiding style. */
  lemma {:induction false} ScanAllCellShape(articles: seq<(Article, nat)>, cells: map<nat, Cell>, cfg: Config, id: nat)
    requires forall k :: 0 <= k < |articles| ==> articles[k].1 in cells
    requires id in cells
    ensures ScanAll(articles, cells, cfg)[id] == (if Hit(articles, id, cfg) then HideCell(cells[id], cfg.hardHide) else cells[id])
    decreases |articles|
  {
    if |articles| > 0 {
      var (a, i) := articles[0];
      var cells' := cells[i := ProcessArticle(a, cells[i], cfg)];
      assert forall k :: 0 <= k < |articles[1..]| ==> articles[1..][k].1 in cells';
      ScanAllCellShape(articles[1..], cells', cfg, id);
      HitSplit(articles, id, cfg);
      HideCellIdempotent(cells[id], cfg.hardHide);
    }
  }
}

=== FILE: notification_filter.dfy ===
/** The keyword filter of X/notification_filter.user.js: notifications whose text carries an
    unchecked keyword are hidden, and a quote notification is recognised by the user's own
    profile image inside it. Settings are a key-value record persisted as a whole. */
module NotificationFilter {

  import opened Common
  import opened Text

  /** The quote label: the one keyword checked through the profile image, not the text. */
  const QuoteLabel: string := "引用"

  /** `filterKeywords`, in panel order. */
  const Keywords: seq<string> := [
    "返信先",
    QuoteLabel,
    "フォローされました",
    "あなたのポストをいいねしました",
    "あなたの返信をいいねしました",
    "あなたのポストをリポストしました",
    "あなたの返信をリポストしました",
    "あなたのリポストをいいねしました",
    "あなたのリポストをリポストしました",
    "あなた宛の返信をリポストしました",
    "@ポストをリポストしました"
  ]

  const EnabledKey: string := "enabled"

  /** Attempts of the profile-image lookup before filtering starts without it. */
  const MaxImageRetries: nat := 20

  // ---------------------------------------------------------------- settings

  /** A settings value as read back from storage: a boolean, or some other JSON value of which
      only its truthiness matters. */
  datatype Value = Bool(b: bool) | Other(truthy: bool)

  type Settings = map<string, Value>

  /** `{ enabled: true }` plus every keyword set to `true`. */
  function Defaults(): (d: Settings)
    ensures d.Keys == {EnabledKey} + set k | k in Keywords
    ensures forall k :: k in d ==> d[k] == Bool(true)
  {
    (map k | k in Keywords :: Bool(true))[EnabledKey := Bool(true)]
  }

  /** `{ ...defaultSettings, ...savedSettings }` (lines 226-231). */
  function Merge(saved: Settings): (s: Settings)
    ensures EnabledKey in s
    ensures forall k :: k in Keywords ==> k in s
    ensures s.Keys == Defaults().Keys + saved.Keys
    ensures forall k :: k in saved ==> s[k] == saved[k]
    ensures forall k :: k in s && k !in saved ==> s[k] == Bool(true)
  {
    Defaults() + saved
  }

  /** Saving merged settings and merging them again on the next start changes nothing. */
  lemma MergeRoundTrip(saved: Settings)
    ensures Merge(Merge(saved)) == Merge(saved)
  {
  }

  /** `settings[key] === false`. */
  predicate IsOff(s: Settings, key: string) {
    key in s && s[key] == Bool(false)
  }

  /** The boolean a checkbox shows for `settings[key]` (`undefined` shows unchecked). */
  predicate Truthy(s: Settings, key: string) {
    key in s && (s[key] == Bool(true) || s[key] == Other(true))
  }

  // ---------------------------------------------------------------- hide list

  /** `a` is `b` with some elements deleted, the rest in their order. */
  predicate Subsequence(a: seq<string>, b: seq<string>)
    decreases |b|
  {
    if |a| == 0 then true
    else if |b| == 0 then false
    else (a[0] == b[0] && Subsequence(a[1..], b[1..])) || Subsequence(a, b[1..])
  }

  /** The keywords of `ks` that are switched off, in order. */
  function OffKeywords(s: Settings, ks: seq<string>): (r: seq<string>)
    ensures forall k :: k in r <==> k in ks && IsOff(s, k)
    ensures Subsequence(r, ks)
  {
    if |ks| == 0 then []
    else if IsOff(s, ks[0]) then [ks[0]] + OffKeywords(s, ks[1..])
    else OffKeywords(s, ks[1..])
  }

  /** `keywordsToHide` (line 56). */
  function HideList(s: Settings): (r: seq<string>)
    ensures forall k :: k in r <==> k in Keywords && IsOff(s, k)
    ensures Subsequence(r, Keywords)
  {
    OffKeywords(s, Keywords)
  }

  // ---------------------------------------------------------------- per-notification decision

  /** A notification cell: its `innerText`, the `src` of every `img` in it, its `style.display`. */
  datatype Notification = Notification(text: string, imgSrcs: seq<string>, display: string)

  /** Some keyword of `ks`, other than the quote label, occurs in `text` (already lowered). */
  predicate TextHit(text: string, ks: seq<string>) {
    exists k :: k in ks && k != QuoteLabel && Contains(text, ToLower(k))
  }

  /** The cell holds an image matched by `img[src*="<prefix>"]`. */
  predicate ImageHit(n: Notification, prefix: string) {
    exists src :: src in n.imgSrcs && Contains(src, prefix)
  }

  /** What one unchecked keyword hides: a cell whose lowered text contains it, or, for the quote
      label, a cell showing the user's own profile image once the prefix is known. */
  predicate KeywordHides(n: Notification, k: string, prefix: string) {
    if k == QuoteLabel then prefix != "" && ImageHit(n, prefix)
    else Contains(ToLower(n.text), ToLower(k))
  }

  /** Lines 61-74: hidden by a keyword in the text, or, for quotes, by the user's own image. */
  function Hides(n: Notification, offList: seq<string>, prefix: string): (r: bool)
    ensures r <==> exists k :: k in offList && KeywordHides(n, k, prefix)
    ensures QuoteLabel !in offList || prefix == "" ==> (r <==> TextHit(ToLower(n.text), offList))
  {
    || TextHit(ToLower(n.text), offList)
    || (prefix != "" && QuoteLabel in offList && ImageHit(n, prefix))
  }

  /** `filterNotifications()` (lines 46-83) over the cells on the page, in document order. */
  function Filter(s: Settings, prefix: string, cells: seq<Notification>): (r: seq<Notification>)
    ensures |r| == |cells|
    ensures forall i :: 0 <= i < |r| ==> r[i].text == cells[i].text && r[i].imgSrcs == cells[i].imgSrcs
    // switched off: every hidden cell is shown again, nothing else changes
    ensures IsOff(s, EnabledKey) ==> forall i :: 0 <= i < |r| ==>
      r[i].display == (if cells[i].display == "none" then "" else cells[i].display)
    // nothing to hide: no display changes, cells hidden earlier stay hidden
    ensures !IsOff(s, EnabledKey) && HideList(s) == [] ==> r == cells
    ensures !IsOff(s, EnabledKey) && HideList(s) != [] ==> forall i :: 0 <= i < |r| ==>
      r[i].display == (if Hides(cells[i], HideList(s), prefix) then "none" else "")
  {
    if IsOff(s, EnabledKey) then
      seq(|cells|, i requires 0 <= i < |cells| =>
        (if cells[i].display == "none" then cells[i].(display := "") else cells[i]))
    else
      var offList := HideList(s);
      if |offList| == 0 then cells
      else
        seq(|cells|, i requires 0 <= i < |cells| =>
          cells[i].(display := (if Hides(cells[i], offList, prefix) then "none" else "")))
  }

  /** A second run with the same settings and cells leaves every display as the first run did. */
  lemma FilterIdempotent(s: Settings, prefix: string, cells: seq<Notification>)
    ensures Filter(s, prefix, Filter(s, prefix, cells)) == Filter(s, prefix, cells)
  {
    var once := Filter(s, prefix, cells);
    var twice := Filter(s, prefix, once);
    assert forall i :: 0 <= i < |once| ==> twice[i] == once[i];
  }

  /** The quote label never hides by text: a notification whose text only carries the quote
      label stays visible when the profile prefix is unknown. */
  lemma QuoteNeedsProfileImage(n: Notification, offList: seq<string>)
    requires forall k :: k in offList ==> k == QuoteLabel
    ensures !Hides(n, offList, "")
  {
  }

  // ---------------------------------------------------------------- profile image

  /** Lines 250-255: the image URL up to (not including) its last '_', or all of it. */
  function ProfilePrefix(src: string): (r: string)
    ensures r <= src
    ensures '_' in src ==> |r| < |src| && src[|r|] == '_' && '_' !in src[|r| + 1..]
    ensures '_' !in src ==> r == src
  {
    var i := LastIndexOf(src, '_');
    if i != -1 then src[..i] else src
  }

  /** A URL whose only '_' is its first character yields an empty prefix, which switches the
      image check off exactly as a failed lookup does. */
  lemma LeadingUnderscoreDisablesQuoteCheck(rest: string)
    requires '_' !in rest
    ensures ProfilePrefix("_" + rest) == ""
  {
    assert forall k :: 0 < k < |"_" + rest| ==> ("_" + rest)[k] == rest[k - 1];
  }

  /** The retrying lookup (lines 240-269): one observation per 500 ms tick, the `src` of the
      account button's image (`""` when the button, the image or its `src` is missing). It
      returns whether filtering has started, the prefix it started with, and the ticks used. */
  method AcquirePrefix(ticks: seq<string>) returns (started: bool, prefix: string, used: nat)
    ensures used <= |ticks| && used <= MaxImageRetries
    ensures started <==> used > 0 && (ticks[used - 1] != "" || used == MaxImageRetries)
    ensures started ==> prefix == (if ticks[used - 1] != "" then ProfilePrefix(ticks[used - 1]) else "")
    ensures forall i :: 0 <= i < used - 1 ==> ticks[i] == ""
    ensures !started ==> used == |ticks| && forall i :: 0 <= i < |ticks| ==> ticks[i] == ""
  {
    var attempts: nat := 0;
    used := 0;
    started := false;
    prefix := "";
    while used < |ticks| && !started
      invariant used <= |ticks|
      invariant attempts <= used <= MaxImageRetries
      invariant !started ==> attempts == used
      invariant forall i :: 0 <= i < used - 1 ==> ticks[i] == ""
      invariant !started ==> prefix == "" && forall i :: 0 <= i < used ==> ticks[i] == ""
      invariant !started ==> used < MaxImageRetries
      invariant started ==> used > 0 && (ticks[used - 1] != "" || used == MaxImageRetries)
      invariant started ==> prefix == (if ticks[used - 1] != "" then ProfilePrefix(ticks[used - 1]) else "")
    {
      var src := ticks[used];
      used := used + 1;
      if src != "" {
        prefix := ProfilePrefix(src);
        started := true;
      } else {
        attempts := attempts + 1;
        if attempts >= MaxImageRetries {
          started := true;
        }
      }
    }
  }

  // ---------------------------------------------------------------- settings panel

  /** The state of the settings panel after `updateUIVisibility()`. */
  datatype Panel = Panel(masterChecked: bool, detailsDisabled: bool, keywordChecked: seq<bool>)

  /** `updateUIVisibility()` (lines 206-218). */
  function ShowSettings(s: Settings): (p: Panel)
    ensures p.detailsDisabled <==> !Truthy(s, EnabledKey)
    ensures p.masterChecked <==> Truthy(s, EnabledKey)
    ensures |p.keywordChecked| == |Keywords|
    ensures forall i :: 0 <= i < |Keywords| ==> (p.keywordChecked[i] <==> Truthy(s, Keywords[i]))
  {
    Panel(Truthy(s, EnabledKey), !Truthy(s, EnabledKey),
          seq(|Keywords|, i requires 0 <= i < |Keywords| => Truthy(s, Keywords[i])))
  }

  /** Everything a settings change leaves behind: the persisted settings, the panel, the cells. */
  datatype Applied = Applied(saved: Settings, panel: Panel, cells: seq<Notification>)

  /** `updateAndPersist()` (lines 197-201). */
  function Apply(s: Settings, prefix: string, cells: seq<Notification>): (a: Applied)
    // the settings are saved as they are, the panel is redrawn from them, and the filter re-runs
    ensures a.saved == s && a.panel == ShowSettings(s) && a.cells == Filter(s, prefix, cells)
    // settings holding every key (as after a load) are saved so that they reload unchanged
    ensures EnabledKey in s && (forall k :: k in Keywords ==> k in s) ==> Merge(a.saved) == s
    ensures a.panel.detailsDisabled <==> !Truthy(s, EnabledKey)
    ensures |a.cells| == |cells|
    ensures forall i :: 0 <= i < |cells| ==> a.cells[i].text == cells[i].text
  {
    var applied := Applied(s, ShowSettings(s), Filter(s, prefix, cells));
    if EnabledKey in s && (forall k :: k in Keywords ==> k in s) then
      MergeOfComplete(s);
      applied
    else applied
  }

  /** `handleDetailChange` (lines 145-149): a keyword checkbox sets that keyword alone. */
  function OnDetailChange(s: Settings, keyword: string, checked: bool): (s': Settings)
    ensures s'.Keys == s.Keys + {keyword}
    ensures s'[keyword] == Bool(checked)
    ensures forall k :: k in s && k != keyword ==> s'[k] == s[k]
  {
    s[keyword := Bool(checked)]
  }

  /** `handleMasterChange` (lines 140-143). */
  function OnMasterChange(s: Settings, checked: bool): (s': Settings)
    ensures s'.Keys == s.Keys + {EnabledKey}
    ensures s'[EnabledKey] == Bool(checked)
    ensures forall k :: k in s && k != EnabledKey ==> s'[k] == s[k]
  {
    s[EnabledKey := Bool(checked)]
  }

  /** Settings that already hold every default key are their own merge: what a change
      persists is exactly what the next start reads back. */
  lemma MergeOfComplete(s: Settings)
    requires EnabledKey in s && forall k :: k in Keywords ==> k in s
    ensures Merge(s) == s
  {
  }

  /** Unchecking a keyword hides, on the next pass, every notification whose text carries it
      (the quote label aside), and what is persisted reloads unchanged. */
  lemma UncheckHides(s: Settings, prefix: string, cells: seq<Notification>, keyword: string, i: nat)
    requires !IsOff(s, EnabledKey) && EnabledKey in s
    requires forall k :: k in Keywords ==> k in s
    requires keyword in Keywords && keyword != QuoteLabel
    requires i < |cells| && Contains(ToLower(cells[i].text), ToLower(keyword))
    ensures Apply(OnDetailChange(s, keyword, false), prefix, cells).cells[i].display == "none"
    ensures Merge(Apply(OnDetailChange(s, keyword, false), prefix, cells).saved) == OnDetailChange(s, keyword, false)
  {
    var s' := OnDetailChange(s, keyword, false);
    assert IsOff(s', keyword);
    var offList := HideList(s');
    assert keyword in offList;
    assert TextHit(ToLower(cells[i].text), offList);
    assert Hides(cells[i], offList, prefix);
    MergeOfComplete(s');
  }

  /** The panel and the filter read "enabled" differently: a saved non-boolean falsy value
      greys the keyword list out while the filter keeps running. */
  lemma FalsyEnabledStillFilters(s: Settings)
    requires EnabledKey in s && s[EnabledKey] == Other(false)
    ensures ShowSettings(s).detailsDisabled
    ensures !IsOff(s, EnabledKey)
  {
  }
}

=== FILE: resolver.dfy ===
/** The element resolver of the subtitle-area script: `watchElementsToAction` and
    `waitForElements` (YouTube/expand_subtitle_area.user.js, lines 46-114).

    The document is abstracted away: the immediate `querySelectorAll(query)` result is a
    sequence of elements, and a mutation batch is the sequence of added nodes the observer
    callback walks, each carrying what its parent's `querySelectorAll(query)` returns. */
module Resolver {

  import opened Common

  /** One added node of a mutation batch, as the observer callback sees it. */
  datatype AddedNode<E> = AddedNode(
    hasParent: bool,        // `node.parentNode` is non-null
    parentQueryable: bool,  // the parent has a `querySelectorAll` function
    matches: seq<E>)        // `node.parentNode.querySelectorAll(query)`, in document order

  /** The `action` argument: `null`, or a callback that may disconnect the observer it is handed. */
  datatype Action = NoAction | Callback(disconnects: bool)

  /** The lasting effect of one `watchElementsToAction` call. */
  datatype Watch<E> = Watch(
    doOnce: bool,
    action: Action,
    observer: bool,   // a MutationObserver was created (the call did not return null)
    live: bool,       // that observer is still connected
    acted: seq<E>)    // every element handed to `action`, in call order

  /** A node the callback queries: it has a parent and the parent can be queried. */
  predicate Qualifies<E>(n: AddedNode<E>) {
    n.hasParent && n.parentQueryable
  }

  /** The call itself. A `querySelectorAll` result is always truthy, so the immediate
      `resultAction` succeeds exactly when an action was given, whatever it matched. */
  function Start<E>(initial: seq<E>, action: Action, doOnce: bool): (w: Watch<E>)
    ensures action.Callback? ==> w.acted == initial
    ensures action.NoAction? ==> w.acted == []
    ensures w.observer <==> !(action.Callback? && doOnce)
    ensures w.live == w.observer
  {
    if action.Callback? then
      // the immediate call hands `action` an undefined observer, so nothing is disconnected here
      if doOnce then Watch(doOnce, action, false, false, initial)
      else Watch(doOnce, action, true, true, initial)
    else Watch(doOnce, action, true, true, [])
  }

  /** Elements handed to the action while the callback walks `batch`. */
  function ScanActed<E>(action: Action, batch: seq<AddedNode<E>>): seq<E> {
    if |batch| == 0 then []
    else
      var n := batch[0];
      (if action.Callback? && Qualifies(n) then n.matches else []) + ScanActed(action, batch[1..])
  }

  /** Whether walking `batch` disconnects the observer. The walk itself never stops early:
      `some` continues because every inner callback returns a falsy value. */
  function ScanDisconnects<E>(action: Action, doOnce: bool, batch: seq<AddedNode<E>>): bool {
    if |batch| == 0 then false
    else
      var n := batch[0];
      || (Qualifies(n) && doOnce)
      || (Qualifies(n) && action == Callback(true) && |n.matches| > 0)
      || ScanDisconnects(action, doOnce, batch[1..])
  }

  /** A batch that disconnects is one holding a queried node under `doOnce`, or a queried
      node with matches handed to a disconnecting action. */
  lemma {:induction false} ScanDisconnectsExactly<E>(action: Action, doOnce: bool, batch: seq<AddedNode<E>>)
    ensures ScanDisconnects(action, doOnce, batch) <==>
      exists k :: 0 <= k < |batch| && Qualifies(batch[k]) &&
        (doOnce || (action == Callback(true) && |batch[k].matches| > 0))
  {
    if |batch| > 0 {
      ScanDisconnectsExactly(action, doOnce, batch[1..]);
      if ScanDisconnects(action, doOnce, batch[1..]) {
        var k :| 0 <= k < |batch[1..]| && Qualifies(batch[1..][k]) &&
          (doOnce || (action == Callback(true) && |batch[1..][k].matches| > 0));
        assert batch[k + 1] == batch[1..][k];
      }
      forall k | 1 <= k < |batch| ensures batch[k] == batch[1..][k - 1] { }
    }
  }

  /** Without an action nothing is ever acted on. */
  lemma {:induction false} ScanActedNoAction<E>(batch: seq<AddedNode<E>>)
    ensures ScanActed(NoAction, batch) == []
  {
    if |batch| > 0 {
      ScanActedNoAction(batch[1..]);
    }
  }

  /** One delivery of a mutation batch to the observer: a disconnected observer receives nothing. */
  function Deliver<E>(w: Watch<E>, batch: seq<AddedNode<E>>): (w': Watch<E>)
    ensures !w.live ==> w' == w
    ensures w.acted <= w'.acted
    ensures w'.live ==> w.live
    ensures w'.doOnce == w.doOnce && w'.action == w.action && w'.observer == w.observer
  {
    if !w.live then w
    else w.(acted := w.acted + ScanActed(w.action, batch),
            live := !ScanDisconnects(w.action, w.doOnce, batch))
  }

  /** Delivery of a sequence of batches, in order. */
  function DeliverAll<E>(w: Watch<E>, batches: seq<seq<AddedNode<E>>>): Watch<E>
    decreases |batches|
  {
    if |batches| == 0 then w else DeliverAll(Deliver(w, batches[0]), batches[1..])
  }

  /** Over any run, acted elements are only appended and a disconnected observer stays so. */
  lemma {:induction false} DeliverAllMonotone<E>(w: Watch<E>, batches: seq<seq<AddedNode<E>>>)
    ensures w.acted <= DeliverAll(w, batches).acted
    ensures DeliverAll(w, batches).live ==> w.live
    ensures !w.live ==> DeliverAll(w, batches) == w
    decreases |batches|
  {
    if |batches| > 0 {
      DeliverAllMonotone(Deliver(w, batches[0]), batches[1..]);
    }
  }

  /** With `doOnce` and an action, the call acts once per element already matched, returns
      null and never observes anything afterwards, even when nothing matched. */
  lemma DoOnceNeverSubscribes<E>(initial: seq<E>, disconnects: bool, batches: seq<seq<AddedNode<E>>>)
    ensures var w := DeliverAll(Start(initial, Callback(disconnects), true), batches);
      !w.observer && !w.live && w.acted == initial
  {
    DeliverAllMonotone(Start(initial, Callback(disconnects), true), batches);
  }

  /** The continuous mode with a non-disconnecting action stays subscribed for good and acts
      on every match of every queried node. */
  lemma ContinuousStaysLive<E>(w: Watch<E>, batch: seq<AddedNode<E>>)
    requires w.live && !w.doOnce && w.action == Callback(false)
    ensures Deliver(w, batch).live
    ensures Deliver(w, batch).acted == w.acted + ScanActed(w.action, batch)
  {
    ScanDisconnectsExactly(w.action, w.doOnce, batch);
  }

  /** `doOnce` without an action: the observer disconnects at the first batch holding a
      queried node, whether or not that node's parent matched anything. */
  lemma DoOnceWithoutActionDisconnectsOnAnyNode<E>(w: Watch<E>, batch: seq<AddedNode<E>>, k: nat)
    requires w.live && w.doOnce && w.action == NoAction
    requires k < |batch| && Qualifies(batch[k])
    ensures !Deliver(w, batch).live
    ensures Deliver(w, batch).acted == w.acted
  {
    ScanDisconnectsExactly(w.action, w.doOnce, batch);
    ScanActedNoAction(batch);
  }

  /** `waitForElements(query)`: the resolver in continuous mode whose action disconnects the
      observer it is handed and resolves the promise with the element. */
  function WaitForElements<E>(initial: seq<E>): (w: Watch<E>)
    ensures w.observer && w.live && w.acted == initial
  {
    Start(initial, Callback(true), false)
  }

  /** The value the promise settles on: the first element handed to `resolve`. */
  function Resolution<E>(w: Watch<E>): Option<E> {
    if |w.acted| > 0 then Some(w.acted[0]) else None
  }

  /** A promise settles once: later deliveries never change the resolved element. */
  lemma ResolutionStable<E>(w: Watch<E>, batches: seq<seq<AddedNode<E>>>)
    requires Resolution(w).Some?
    ensures Resolution(DeliverAll(w, batches)) == Resolution(w)
  {
    DeliverAllMonotone(w, batches);
  }

  /** An element already present resolves the wait at once, and the observer created alongside
      is never disconnected by it: the action only disconnects observers it is handed. */
  lemma WaitAlreadyPresentLeavesObserverLive<E>(initial: seq<E>)
    requires |initial| > 0
    ensures Resolution(WaitForElements(initial)) == Some(initial[0])
    ensures WaitForElements(initial).live
  {
  }

  /** A wait that resolves through the observer disconnects it in that same batch. */
  lemma WaitResolvedByMutationDisconnects<E>(batch: seq<AddedNode<E>>, k: nat)
    requires k < |batch| && Qualifies(batch[k]) && |batch[k].matches| > 0
    ensures !Deliver(WaitForElements<E>([]), batch).live
    ensures Resolution(Deliver(WaitForElements<E>([]), batch)).Some?
  {
    ScanDisconnectsExactly(Callback(true), false, batch);
    ScanActedContains(Callback(true), batch, k);
  }

  /** The matches of a queried node are all handed to the action. */
  lemma {:induction false} ScanActedContains<E>(action: Action, batch: seq<AddedNode<E>>, k: nat)
    requires action.Callback? && k < |batch| && Qualifies(batch[k])
    ensures multiset(batch[k].matches) <= multiset(ScanActed(action, batch))
  {
    if k > 0 {
      ScanActedContains(action, batch[1..], k - 1);
    }
  }
}

=== FILE: show_more.dfy ===
/** The automatic "show more" click of X/auto_click_more.user.js. The page is the sequence of
    candidates `querySelectorAll('span, div, button')` returns, each reduced to what the script
    reads from it. */
module ShowMore {

  import opened Common

  /** The label of the "show more" link in the Japanese interface. */
  const TargetText: string := "さらに表示"

  /** A `<button>` element: its identity and its `disabled` property. */
  datatype ButtonRef = ButtonRef(id: nat, disabled: bool)

  /** One candidate element: `innerText`, whether `offsetParent` is non-null, and
      `element.closest('button')` (the element itself when it is a button). */
  datatype Candidate = Candidate(innerText: string, hasOffsetParent: bool, closestButton: Option<ButtonRef>)

  /** The test of line 27: exactly the label, and rendered. */
  predicate Matches(c: Candidate) {
    c.innerText == TargetText && c.hasOffsetParent
  }

  /** A candidate that leads to a click: it matches and has an enabled enclosing button. */
  predicate Fires(c: Candidate) {
    Matches(c) && c.closestButton.Some? && !c.closestButton.value.disabled
  }

  /** The buttons clicked, in candidate order, one click per firing candidate. */
  function ClickedButtons(cands: seq<Candidate>): (ids: seq<nat>)
    ensures |ids| <= |cands|
    ensures forall b :: b in ids ==> exists c :: c in cands && Fires(c) && c.closestButton.value.id == b
  {
    if |cands| == 0 then []
    else (if Fires(cands[0]) then [cands[0].closestButton.value.id] else []) + ClickedButtons(cands[1..])
  }

  /** The clicks of a concatenation are the clicks of its parts, in order. */
  lemma {:induction false} ClickedButtonsAppend(a: seq<Candidate>, b: seq<Candidate>)
    ensures ClickedButtons(a + b) == ClickedButtons(a) + ClickedButtons(b)
  {
    if |a| > 0 {
      assert (a + b)[1..] == a[1..] + b;
      ClickedButtonsAppend(a[1..], b);
    } else {
      assert a + b == b;
    }
  }

  /** Some click happens exactly when some candidate fires. */
  lemma {:induction false} ClickedButtonsNonEmpty(cands: seq<Candidate>)
    ensures |ClickedButtons(cands)| > 0 <==> exists i :: 0 <= i < |cands| && Fires(cands[i])
  {
    if |cands| > 0 {
      ClickedButtonsNonEmpty(cands[1..]);
      if exists i :: 0 <= i < |cands[1..]| && Fires(cands[1..][i]) {
        var i :| 0 <= i < |cands[1..]| && Fires(cands[1..][i]);
        assert cands[i + 1] == cands[1..][i];
      }
      forall i | 1 <= i < |cands| ensures cands[i] == cands[1..][i - 1] { }
    }
  }

  /** `clickShowMore()` (lines 21-38): click every firing candidate's button, in order, and
      report whether anything was clicked. */
  method ClickShowMore(cands: seq<Candidate>) returns (clicks: seq<nat>, clicked: bool)
    ensures clicks == ClickedButtons(cands)
    ensures clicked <==> exists i :: 0 <= i < |cands| && Fires(cands[i])
  {
    clicks := [];
    clicked := false;
    var i := 0;
    while i < |cands|
      invariant 0 <= i <= |cands|
      invariant clicks == ClickedButtons(cands[..i])
      invariant clicked <==> exists j :: 0 <= j < i && Fires(cands[j])
    {
      var c := cands[i];
      if c.innerText == TargetText && c.hasOffsetParent {
        var parent := c.closestButton;
        if parent.Some? && !parent.value.disabled {
          clicks := clicks + [parent.value.id];
          clicked := true;
        }
      }
      ClickedButtonsAppend(cands[..i], [cands[i]]);
      assert cands[..i + 1] == cands[..i] + [cands[i]];
      i := i + 1;
    }
    assert cands[..i] == cands;
  }

  /** A single non-firing candidate clicks nothing. */
  lemma ClickedButtonsSilent(c: Candidate)
    requires !Fires(c)
    ensures ClickedButtons([c]) == []
  {
    assert [c][1..] == [];
  }

  /** A sequence is its part before `i`, its element at `i`, and its part after `i`. */
  lemma SplitAround<T>(s: seq<T>, i: nat)
    requires i < |s|
    ensures s == (s[..i] + [s[i]]) + s[i + 1..]
  {
  }

  /** Candidates that do not match, or whose button is missing or disabled, change nothing:
      removing one leaves the clicks as they were. */
  lemma NonFiringIsInert(cands: seq<Candidate>, i: nat)
    requires i < |cands| && !Fires(cands[i])
    ensures ClickedButtons(cands[..i] + cands[i + 1..]) == ClickedButtons(cands)
  {
    var front, back := cands[..i], cands[i + 1..];
    var one := [cands[i]];
    SplitAround(cands, i);
    ClickedButtonsSilent(cands[i]);
    calc {
      ClickedButtons(cands);
    ==
      ClickedButtons((front + one) + back);
    == { ClickedButtonsAppend(front + one, back); }
      ClickedButtons(front + one) + ClickedButtons(back);
    == { ClickedButtonsAppend(front, one); }
      ClickedButtons(front) + ClickedButtons(back);
    == { ClickedButtonsAppend(front, back); }
      ClickedButtons(front + back);
    }
  }

  /** There is no de-duplication: a label and its enclosing span inside one button both fire,
      and the button is clicked twice. */
  lemma SameButtonClickedTwice(b: nat)
    ensures ClickedButtons([Candidate(TargetText, true, Some(ButtonRef(b, false))),
                            Candidate(TargetText, true, Some(ButtonRef(b, false)))]) == [b, b]
  {
    var c := Candidate(TargetText, true, Some(ButtonRef(b, false)));
    assert [c, c][1..] == [c];
  }
}

=== FILE: skip_focus.dfy ===
/** Keyboard focus for the ad "skip" button, from YouTube/focus_skip_button.user.js. The
    document is a query function from selector to element, the computed style of the button is
    an observation, and every animation frame of the retry loop reads one observation. */
module SkipFocus {

  import opened Common

  /** The skip button's class names over the player's versions, most specific last. */
  const Selectors: seq<string> := [".ytp-ad-skip-button", ".ytp-skip-ad-button", ".ytp-ad-skip-button-modern"]

  /** `focusWithRetries`'s default budget. */
  const DefaultAttempts: int := 10

  /** The index of the first selector with a match. */
  function FirstHit<E>(query: string -> Option<E>, sels: seq<string>): (r: Option<nat>)
    ensures r.None? <==> forall i :: 0 <= i < |sels| ==> query(sels[i]).None?
    ensures r.Some? ==> r.value < |sels| && query(sels[r.value]).Some?
    ensures r.Some? ==> forall j :: 0 <= j < r.value ==> query(sels[j]).None?
  {
    var flags := seq(|sels|, i requires 0 <= i < |sels| => query(sels[i]).Some?);
    assert forall i :: 0 <= i < |sels| ==> flags[i] == query(sels[i]).Some?;
    FirstTrue(flags)
  }

  /** `findSkipButton()` (lines 16-22): the element of the earliest selector that matches
      anything, or null. */
  function FindSkipButton<E>(query: string -> Option<E>): (r: Option<E>)
    ensures r.None? <==> forall i :: 0 <= i < |Selectors| ==> query(Selectors[i]).None?
    ensures r.Some? ==>
      exists i :: 0 <= i < |Selectors| && query(Selectors[i]) == r && (forall j :: 0 <= j < i ==> query(Selectors[j]).None?)
  {
    match FirstHit(query, Selectors)
    case None => None
    case Some(i) => query(Selectors[i])
  }

  /** What `isVisible` reads of an element: computed `display`, `visibility`, `offsetParent`. */
  datatype Look = Look(display: string, visibility: string, hasOffsetParent: bool)

  /** `isVisible(el)` (lines 24-30). */
  function IsVisible(el: Option<Look>): (r: bool)
    ensures el.None? ==> !r
    ensures el.Some? && (el.value.display == "none" || el.value.visibility == "hidden") ==> !r
    ensures el.Some? && !el.value.hasOffsetParent ==> !r
    ensures el.Some? && el.value.display != "none" && el.value.visibility != "hidden" && el.value.hasOffsetParent ==> r
  {
    match el
    case None => false
    case Some(l) => l.display != "none" && l.visibility != "hidden" && l.hasOffsetParent
  }

  /** What one `tryFocus` run finds: is the button visible, and, once focused, is it the active element. */
  datatype Observation = Observation(visible: bool, becomesActive: bool)

  /** A run that ends the retries with the button focused. */
  predicate Succeeds(o: Observation) {
    o.visible && o.becomesActive
  }

  /** `focusWithRetries(btn, attempts)` (lines 32-49), run to completion: observation `i` is
      what the `i`-th `tryFocus` sees. It returns how many runs happened, the runs on which
      tabIndex, focus and outline were applied, and whether the button ended up focused. */
  method FocusWithRetries(attempts: int, obs: nat -> Observation)
    returns (runs: nat, styled: seq<nat>, focused: bool)
    ensures 1 <= runs
    ensures attempts >= 1 ==> runs <= attempts
    ensures attempts < 1 ==> runs == 1
    ensures focused <==> Succeeds(obs(runs - 1))
    ensures forall i :: 0 <= i < runs - 1 ==> !Succeeds(obs(i))
    ensures focused || runs == (if attempts >= 1 then attempts else 1)
    ensures forall i: nat :: i in styled <==> i < runs && obs(i).visible
    ensures forall k :: 0 <= k < |styled| - 1 ==> styled[k] < styled[k + 1]
  {
    var left := attempts;
    runs := 0;
    styled := [];
    focused := false;
    var again := true;
    while again
      invariant again ==> left >= 1 || runs == 0
      invariant again ==> runs == 0 || left == attempts - runs
      invariant !again ==> runs >= 1
      invariant attempts >= 1 ==> runs <= attempts
      invariant attempts < 1 ==> runs <= 1
      invariant runs == 0 ==> left == attempts
      invariant !again ==> (focused <==> Succeeds(obs(runs - 1)))
      invariant again ==> !focused
      invariant forall i :: 0 <= i < runs - 1 ==> !Succeeds(obs(i))
      invariant again && runs > 0 ==> !Succeeds(obs(runs - 1))
      invariant !again ==> focused || runs == (if attempts >= 1 then attempts else 1)
      invariant forall i: nat :: i in styled <==> i < runs && obs(i).visible
      invariant forall k :: 0 <= k < |styled| ==> styled[k] < runs
      invariant forall k :: 0 <= k < |styled| - 1 ==> styled[k] < styled[k + 1]
      decreases if again then (if left > 0 then left else 0) + 1 else 0
    {
      var o := obs(runs);
      runs := runs + 1;
      if !o.visible {
        left := left - 1;
        again := left > 0;
      } else {
        styled := styled + [runs - 1];
        if o.becomesActive {
          focused := true;
          again := false;
        } else {
          left := left - 1;
          again := left > 0;
        }
      }
    }
  }

  /** `focusWithRetries(btn)` as `watchButton` calls it, with the default budget: at most ten
      runs, stopping early exactly at the first run that focuses the button. */
  method FocusWithDefaultRetries(obs: nat -> Observation) returns (runs: nat, styled: seq<nat>, focused: bool)
    ensures 1 <= runs <= DefaultAttempts
    ensures focused <==> Succeeds(obs(runs - 1))
    ensures forall i :: 0 <= i < runs - 1 ==> !Succeeds(obs(i))
    ensures !focused ==> runs == DefaultAttempts
    ensures forall i: nat :: i in styled <==> i < runs && obs(i).visible
  {
    runs, styled, focused := FocusWithRetries(DefaultAttempts, obs);
  }

  /** When focusing starts: at once, after the attribute change with this index, or not yet. */
  datatype Start = Immediately | AfterChange(index: nat) | NotYet

  /** `watchButton(btn)` (lines 51-65): focus now if visible; otherwise watch the button's
      attributes, and on the first change that leaves it visible disconnect and focus. Each
      entry of `changes` is whether the button is visible after that attribute change. */
  function WatchButton(visibleNow: bool, changes: seq<bool>): (s: Start)
    ensures visibleNow ==> s == Immediately
    ensures !visibleNow ==> (s == NotYet <==> forall i :: 0 <= i < |changes| ==> !changes[i])
    ensures !visibleNow && s.AfterChange? ==>
      s.index < |changes| && changes[s.index] && forall i :: 0 <= i < s.index ==> !changes[i]
    ensures s != Immediately ==> !visibleNow
  {
    if visibleNow then Immediately
    else
      match FirstTrue(changes)
      case None => NotYet
      case Some(i) => AfterChange(i)
  }
}

=== FILE: subtitle_area.dfy ===
/** The subtitle-area expansion controller of YouTube/expand_subtitle_area.user.js.

    The script's module-level variables `is_expanding`, `reserved_expanding_state`,
    `expand_rate` and `control_button` become one immutable `Controller` record, together with
    the inline styles the script writes and the persisted key-value store. Each DOM event is a
    pure transition. What the script reads from the page at the moment of an event (is there a
    video, how tall is it, which container holds it) is a `Geometry` supplied with the event.

    A handler that throws a TypeError keeps every write made before the throw and skips the
    rest; the model follows that ordering statement by statement. */
module SubtitleArea {

  import opened Common

  const ExpandRateKey: string := "EXPAND_RATE"
  const DefaultRate: real := 1.1
  const MinRate: real := 1.0
  const MaxRate: real := 1.3
  /** Rate change per unit of wheel `deltaY`. */
  const WheelStep: real := 0.0001

  // ---------------------------------------------------------------- persisted parameter

  /** A stored string, abstracted by the number it denotes: `Numeric(v)` when `isNaN` is false
      and `parseFloat` yields `v`, `NonNumeric` otherwise. */
  datatype Stored = Numeric(number: real) | NonNumeric(raw: string)

  /** `localStorage`, as a map from key to stored string. */
  type Storage = map<string, Stored>

  /** `loadStringFromStorage(id, def_value)`, returning the number the resulting string denotes
      (`None` for the `null` return). A present, numeric entry wins; otherwise the default's own
      text, unless the default is falsy (the number zero). */
  function LoadString(storage: Storage, id: string, def: real): (r: Option<real>)
    ensures id in storage && storage[id].Numeric? ==> r == Some(storage[id].number)
    ensures !(id in storage && storage[id].Numeric?) ==> r == (if def != 0.0 then Some(def) else None)
    ensures r == None ==> def == 0.0
  {
    if id !in storage || storage[id].NonNumeric? then
      if def != 0.0 then Some(def) else None
    else Some(storage[id].number)
  }

  /** The rate the script starts with: `parseFloat(loadStringFromStorage("EXPAND_RATE", 1.1))`.
      It is not clamped. */
  function StartupRate(storage: Storage): (rate: real)
    ensures ExpandRateKey in storage && storage[ExpandRateKey].Numeric? ==> rate == storage[ExpandRateKey].number
    ensures !(ExpandRateKey in storage && storage[ExpandRateKey].Numeric?) ==> rate == DefaultRate
  {
    match LoadString(storage, ExpandRateKey, DefaultRate)
    case Some(v) => v
    case None => DefaultRate
  }

  /** The startup rate is taken as stored, even far outside [1.0, 1.3]. */
  lemma StartupRateIsNotClamped()
    ensures StartupRate(map[ExpandRateKey := Numeric(5.0)]) == 5.0
    ensures StartupRate(map[ExpandRateKey := NonNumeric("abc")]) == DefaultRate
  {
  }

  /** The rate's domain. */
  predicate InRange(rate: real) {
    MinRate <= rate <= MaxRate
  }

  /** Lines 170-173: add `delta * 0.0001`, then raise to 1.0, then lower to 1.3. */
  function AdjustedRate(rate: real, delta: real): (r: real)
    ensures InRange(r)
    ensures InRange(rate + delta * WheelStep) ==> r == rate + delta * WheelStep
    ensures rate + delta * WheelStep < MinRate ==> r == MinRate
    ensures rate + delta * WheelStep > MaxRate ==> r == MaxRate
  {
    var raised := if rate + delta * WheelStep > MinRate then rate + delta * WheelStep else MinRate;
    if raised < MaxRate then raised else MaxRate
  }

  /** Once at a bound, further wheel input in that direction leaves the rate at the bound. */
  lemma AdjustedRateSaturates(delta: real)
    requires delta >= 0.0
    ensures AdjustedRate(MaxRate, delta) == MaxRate
    ensures AdjustedRate(MinRate, -delta) == MinRate
  {
  }

  // ---------------------------------------------------------------- layout recomputation

  /** What `updateSubtitleAreaExpand` reads from the page. */
  datatype Geometry = Geometry(
    hasVideo: bool,        // `document.querySelector(VIDEO_CLASS_QUERY)` is non-null
    videoHeight: real,     // `parseInt(video.style.height, 10)`
    hasCinema: bool,       // `#full-bleed-container` exists
    hasDefault: bool,      // `#player-container-inner` exists
    videoInCinema: bool)   // `cinema_conteiner.contains(video)`

  /** The inline styles the script writes; `None` is a removed (or never set) property. */
  datatype Styles = Styles(cinemaHeight: Option<real>, defaultHeight: Option<real>, videoTop: Option<real>)

  /** `updateSubtitleAreaExpand()`. `None` is the TypeError thrown at line 142 when there is no
      video element; otherwise the styles after the call. */
  function Recompute(g: Geometry, expanding: bool, rate: real, st: Styles): (r: Option<Styles>)
    ensures r.None? <==> !g.hasVideo
    // a missing container: the call gives up before touching anything
    ensures r.Some? && !(g.hasCinema && g.hasDefault) ==> r.value == st
    // idle: both heights cleared, the video's top left as it was
    ensures r.Some? && g.hasCinema && g.hasDefault && !expanding ==>
      r.value == Styles(None, None, st.videoTop)
    // expanded in the cinematic container: it holds the whole enlarged player
    ensures r.Some? && g.hasCinema && g.hasDefault && expanding && g.videoInCinema ==>
      && r.value.defaultHeight.None?
      && r.value.cinemaHeight.Some? && r.value.cinemaHeight.value == g.videoHeight * rate
      && r.value.videoTop == Some(0.0)
    // expanded in the default container: it holds only the margin, video plus margin is the enlarged height
    ensures r.Some? && g.hasCinema && g.hasDefault && expanding && !g.videoInCinema ==>
      && r.value.cinemaHeight.None?
      && r.value.defaultHeight.Some? && g.videoHeight + r.value.defaultHeight.value == g.videoHeight * rate
      && r.value.videoTop == Some(0.0)
  {
    if !g.hasVideo then None
    else
      var cinematicHeight := g.videoHeight * rate;
      var defaultHeight := cinematicHeight - g.videoHeight;
      if !g.hasCinema || !g.hasDefault then Some(st)
      else
        var cleared := st.(cinemaHeight := None, defaultHeight := None);
        if !expanding then Some(cleared)
        else if g.videoInCinema then Some(cleared.(cinemaHeight := Some(cinematicHeight), videoTop := Some(0.0)))
        else Some(cleared.(defaultHeight := Some(defaultHeight), videoTop := Some(0.0)))
  }

  /** The result depends only on the state and the geometry: recomputing again changes nothing. */
  lemma RecomputeIdempotent(g: Geometry, expanding: bool, rate: real, st: Styles)
    requires Recompute(g, expanding, rate, st).Some?
    ensures Recompute(g, expanding, rate, Recompute(g, expanding, rate, st).value) == Recompute(g, expanding, rate, st)
  {
  }

  /** The two worked cases: rate 1.1 and a 500px video give a 50px margin, or a 550px cinematic container. */
  lemma RecomputeScenarios(st: Styles)
    ensures Recompute(Geometry(true, 500.0, true, true, false), true, 1.1, st) == Some(Styles(None, Some(50.0), Some(0.0)))
    ensures Recompute(Geometry(true, 500.0, true, true, true), true, 1.1, st) == Some(Styles(Some(550.0), None, Some(0.0)))
  {
  }

  // ---------------------------------------------------------------- controller state

  /** The toggle button: its `disabled` property and where the indicator line of its icon is
      drawn (`lineLow` is y = 80%, otherwise y = 60%). */
  datatype Button = Button(disabled: bool, lineLow: bool)

  datatype Controller = Controller(
    expanding: bool,           // is_expanding
    reserved: bool,            // reserved_expanding_state, shared by both suspension sources
    rate: real,                // expand_rate
    button: Option<Button>,    // control_button
    styles: Styles,
    storage: Storage)

  /** The state once the script's entry code has run, before any event. The toggle button is
      added by the `doOnce` resolver call of line 324, which never subscribes (a node list is
      always truthy): the button exists from the start when the control bar is already on the
      page, and never otherwise. */
  function Initial(storage: Storage, st: Styles, controlBarPresent: bool): (c: Controller)
    ensures !c.expanding && !c.reserved
    ensures c.button.Some? <==> controlBarPresent
    ensures c.button.Some? ==> !c.button.value.disabled && !c.button.value.lineLow
    ensures c.rate == StartupRate(storage) && c.storage == storage && c.styles == st
  {
    Controller(false, false, StartupRate(storage), if controlBarPresent then Some(Button(false, false)) else None, st, storage)
  }

  /** The events the controller reacts to. */
  datatype Event =
    | Click                            // click on the toggle button
    | Wheel(deltaY: real)              // wheel over the toggle button
    | FullscreenChange(entered: bool)  // `document.fullscreenElement` is now set (or not)
    | Intersection(entries: seq<bool>) // one IntersectionObserver callback: `isIntersecting` per entry
    | VideoAttributeChange             // the attribute watcher on the video fired

  /** Runs `updateSubtitleAreaExpand` from a handler: the styles it writes, or nothing when it throws. */
  function Relayout(c: Controller, g: Geometry): (c': Controller)
    ensures c' == c.(styles := c'.styles)
    ensures !g.hasVideo ==> c' == c
    // the styles written are exactly what `updateSubtitleAreaExpand` computes from the current ones
    ensures g.hasVideo ==> Recompute(g, c.expanding, c.rate, c.styles) == Some(c'.styles)
    // the written styles are a fixed point: recomputing from them changes nothing
    ensures g.hasVideo ==> Recompute(g, c.expanding, c.rate, c'.styles) == Some(c'.styles)
  {
    match Recompute(g, c.expanding, c.rate, c.styles)
    case Some(st) =>
      RecomputeIdempotent(g, c.expanding, c.rate, c.styles);
      c.(styles := st)
    case None => c
  }

  /** The click handler (lines 231-243). A disabled button receives no click: the browser
      does not dispatch it. */
  function OnClick(c: Controller, g: Geometry): (c': Controller)
    ensures c.button.Some? && !c.button.value.disabled ==> c'.expanding == !c.expanding
    ensures c.button.None? || c.button.value.disabled ==> c' == c
    ensures c'.button.Some? <==> c.button.Some?
    ensures c'.button.Some? ==> c'.button.value.disabled == c.button.value.disabled
    ensures c'.reserved == c.reserved && c'.rate == c.rate && c'.storage == c.storage
    // the styles written are those `updateSubtitleAreaExpand` computes for the flipped state
    ensures c.button.Some? && !c.button.value.disabled && g.hasVideo ==>
      Recompute(g, c'.expanding, c.rate, c.styles) == Some(c'.styles)
    ensures !g.hasVideo ==> c'.styles == c.styles
  {
    match c.button
    case None => c
    case Some(b) =>
      if b.disabled then c
      else
        var flipped := c.(expanding := !c.expanding);
        match Recompute(g, flipped.expanding, c.rate, c.styles)
        case None => flipped  // thrown before the indicator is redrawn
        case Some(st) => flipped.(styles := st, button := Some(b.(lineLow := flipped.expanding)))
  }

  /** The wheel handler (lines 169-181, 246-252): adjust, clamp, persist, recompute. */
  function OnWheel(c: Controller, g: Geometry, deltaY: real): (c': Controller)
    ensures c.button.Some? ==> c'.rate == AdjustedRate(c.rate, deltaY)
    ensures c.button.Some? ==> c'.storage == c.storage[ExpandRateKey := Numeric(c'.rate)]
    ensures c.button.None? ==> c' == c
    ensures c'.expanding == c.expanding && c'.reserved == c.reserved && c'.button == c.button
    // the layout is recomputed with the new rate
    ensures c.button.Some? && g.hasVideo ==> Recompute(g, c.expanding, c'.rate, c.styles) == Some(c'.styles)
    ensures !g.hasVideo ==> c'.styles == c.styles
  {
    if c.button.None? then c
    else
      var rate := AdjustedRate(c.rate, deltaY);
      Relayout(c.(rate := rate, storage := c.storage[ExpandRateKey := Numeric(rate)]), g)
  }

  /** The fullscreenchange handler (lines 265-281). With no button yet, `control_button.disabled`
      throws after the state variables were written, and nothing is recomputed. */
  function OnFullscreen(c: Controller, g: Geometry, entered: bool): (c': Controller)
    ensures entered ==> !c'.expanding && c'.reserved == c.expanding
    ensures !entered ==> c'.expanding == c.reserved && c'.reserved == c.reserved
    ensures c'.button.Some? <==> c.button.Some?
    ensures c'.button.Some? ==> c'.button.value == c.button.value.(disabled := entered)
    ensures c.button.None? ==> c'.styles == c.styles
    ensures c'.rate == c.rate && c'.storage == c.storage
    // with a button the layout is recomputed for the suspended or resumed state
    ensures c.button.Some? && g.hasVideo ==> Recompute(g, c'.expanding, c.rate, c.styles) == Some(c'.styles)
    ensures !g.hasVideo ==> c'.styles == c.styles
  {
    var c1 := if entered then c.(reserved := c.expanding, expanding := false)
              else c.(expanding := c.reserved);
    match c.button
    case None => c1
    case Some(b) => Relayout(c1.(button := Some(b.(disabled := entered))), g)
  }

  /** One scroll entry as a move of `(is_expanding, reserved_expanding_state)`: coming into view
      resumes the reserved state, leaving the viewport saves the current one and clears it. */
  function ScrollMove(state: (bool, bool), inView: bool): (bool, bool) {
    if inView then (state.1, state.1) else (false, state.0)
  }

  /** The moves of a whole batch of entries, in order. */
  function ScrollMoves(state: (bool, bool), entries: seq<bool>): (r: (bool, bool))
    ensures |entries| == 0 ==> r == state
    // the last entry decides: "out" leaves the controller idle, "in" leaves it on its reserved state
    ensures |entries| > 0 && !entries[|entries| - 1] ==> !r.0
    ensures |entries| > 0 && entries[|entries| - 1] ==> r.0 == r.1
    // the reserved slot only changes on an "out" entry
    ensures (forall k :: 0 <= k < |entries| ==> entries[k]) ==> r.1 == state.1
    decreases |entries|
  {
    if |entries| == 0 then state
    else
      var r := ScrollMoves(ScrollMove(state, entries[0]), entries[1..]);
      assert |entries| > 1 ==> entries[1..][|entries| - 2] == entries[|entries| - 1];
      r
  }

  /** The intersection callback (lines 297-308): every entry suspends or resumes and recomputes;
      a recomputation that throws abandons the remaining entries. */
  function OnIntersection(c: Controller, g: Geometry, entries: seq<bool>): (c': Controller)
    ensures c'.button == c.button && c'.rate == c.rate && c'.storage == c.storage
    ensures |entries| == 0 ==> c' == c
    // with a video every entry is applied and the layout is recomputed after each one, so the
    // styles left are a fixed point of the recomputation for the final state
    ensures g.hasVideo ==> (c'.expanding, c'.reserved) == ScrollMoves((c.expanding, c.reserved), entries)
    ensures g.hasVideo && |entries| > 0 ==> Recompute(g, c'.expanding, c'.rate, c'.styles) == Some(c'.styles)
    // without one the first recompute throws: only the first entry moves the state, and no style is written
    ensures !g.hasVideo && |entries| > 0 ==>
      (c'.expanding, c'.reserved) == ScrollMove((c.expanding, c.reserved), entries[0]) && c'.styles == c.styles
    decreases |entries|
  {
    if |entries| == 0 then c
    else
      var c1 := if entries[0] then c.(expanding := c.reserved)
                else c.(reserved := c.expanding, expanding := false);
      match Recompute(g, c1.expanding, c1.rate, c1.styles)
      case None => c1
      case Some(st) =>
        RecomputeIdempotent(g, c1.expanding, c1.rate, c1.styles);
        OnIntersection(c1.(styles := st), g, entries[1..])
  }

  /** One event, read against the page as it is at that moment. */
  function Step(c: Controller, g: Geometry, e: Event): (c': Controller)
    ensures c'.button.Some? <==> c.button.Some?
    ensures !e.Wheel? ==> c'.rate == c.rate && c'.storage == c.storage
    ensures !e.Click? && c.button.Some? ==> c'.button.value.lineLow == c.button.value.lineLow
  {
    match e
    case Click => OnClick(c, g)
    case Wheel(d) => OnWheel(c, g, d)
    case FullscreenChange(entered) => OnFullscreen(c, g, entered)
    case Intersection(entries) => OnIntersection(c, g, entries)
    case VideoAttributeChange => Relayout(c, g)
  }

  /** A run: events in dispatch order, each with the geometry the page shows at that time. */
  function Run(c: Controller, evs: seq<(Geometry, Event)>): Controller
    decreases |evs|
  {
    if |evs| == 0 then c else Run(Step(c, evs[0].0, evs[0].1), evs[1..])
  }

  // ---------------------------------------------------------------- properties

  /** A completed click leaves the indicator low exactly when the controller is now expanding;
      a click whose recompute throws flips the state but leaves the indicator as it was. */
  lemma ClickIndicator(c: Controller, g: Geometry)
    requires c.button.Some? && !c.button.value.disabled
    ensures g.hasVideo ==> (OnClick(c, g).button.value.lineLow <==> OnClick(c, g).expanding)
    ensures !g.hasVideo ==> OnClick(c, g).button == c.button
  {
  }

  /** Only a click moves the indicator line. */
  lemma OnlyClickMovesIndicator(c: Controller, g: Geometry, e: Event)
    requires c.button.Some? && !e.Click?
    ensures Step(c, g, e).button.Some?
    ensures Step(c, g, e).button.value.lineLow == c.button.value.lineLow
  {
  }

  /** No run adds or removes the button: it is there from the start or never. */
  lemma {:induction false} RunKeepsButtonPresence(c: Controller, evs: seq<(Geometry, Event)>)
    ensures Run(c, evs).button.Some? <==> c.button.Some?
    decreases |evs|
  {
    if |evs| > 0 {
      RunKeepsButtonPresence(Step(c, evs[0].0, evs[0].1), evs[1..]);
    }
  }

  /** Only the fullscreen handler changes whether the button is disabled. */
  lemma OnlyFullscreenDisables(c: Controller, g: Geometry, e: Event)
    requires c.button.Some? && !e.FullscreenChange?
    ensures Step(c, g, e).button.Some?
    ensures Step(c, g, e).button.value.disabled == c.button.value.disabled
  {
  }

  /** Only a wheel event changes the rate or the store, and it leaves the rate in range and
      persisted: reloading the store yields the rate in force. */
  lemma WheelPersists(c: Controller, g: Geometry, d: real)
    requires c.button.Some?
    ensures InRange(Step(c, g, Wheel(d)).rate)
    ensures StartupRate(Step(c, g, Wheel(d)).storage) == Step(c, g, Wheel(d)).rate
  {
  }

  /** The rate and the store are touched by the wheel handler alone. */
  lemma OnlyWheelChangesRate(c: Controller, g: Geometry, e: Event)
    requires !e.Wheel?
    ensures Step(c, g, e).rate == c.rate && Step(c, g, e).storage == c.storage
  {
  }

  /** The persisted rate invariant: the rate is in range and is what the store holds. */
  predicate RatePersisted(c: Controller) {
    InRange(c.rate) && ExpandRateKey in c.storage && c.storage[ExpandRateKey] == Numeric(c.rate)
  }

  /** Every event keeps the persisted rate invariant. */
  lemma StepKeepsRatePersisted(c: Controller, g: Geometry, e: Event)
    requires RatePersisted(c)
    ensures RatePersisted(Step(c, g, e))
  {
    if !e.Wheel? {
      OnlyWheelChangesRate(c, g, e);
    }
  }

  /** Once one wheel event has been handled, the rate stays in range and persisted for the rest
      of any run, so a reload restores exactly the rate in force. */
  lemma {:induction false} RunKeepsRatePersisted(c: Controller, evs: seq<(Geometry, Event)>)
    requires RatePersisted(c)
    ensures RatePersisted(Run(c, evs))
    ensures StartupRate(Run(c, evs).storage) == Run(c, evs).rate
    decreases |evs|
  {
    if |evs| > 0 {
      StepKeepsRatePersisted(c, evs[0].0, evs[0].1);
      RunKeepsRatePersisted(Step(c, evs[0].0, evs[0].1), evs[1..]);
    }
  }

  /** Fullscreen suspension: entering forces the state off and disables the button; exiting
      right after restores the state the controller had and re-enables the button. */
  lemma FullscreenRoundTrip(c: Controller, g1: Geometry, g2: Geometry)
    requires c.button.Some?
    ensures !Step(c, g1, FullscreenChange(true)).expanding
    ensures Step(c, g1, FullscreenChange(true)).button.value.disabled
    ensures Step(Step(c, g1, FullscreenChange(true)), g2, FullscreenChange(false)).expanding == c.expanding
    ensures !Step(Step(c, g1, FullscreenChange(true)), g2, FullscreenChange(false)).button.value.disabled
  {
  }

  /** Scroll suspension: leaving the viewport forces the state off without touching the button;
      coming back right after restores the state, whatever the recomputations did. */
  lemma ScrollRoundTrip(c: Controller, g1: Geometry, g2: Geometry)
    ensures !Step(c, g1, Intersection([false])).expanding
    ensures Step(c, g1, Intersection([false])).button == c.button
    ensures Step(Step(c, g1, Intersection([false])), g2, Intersection([true])).expanding == c.expanding
  {
  }

  /** Both suspension sources write the one reserved slot: a scroll-out during fullscreen
      overwrites the saved state with `false`, so after both resumes the controller is idle,
      in either resume order. */
  lemma SharedReservedSlot(c: Controller, g1: Geometry, g2: Geometry, g3: Geometry, g4: Geometry)
    requires c.button.Some?
    ensures Run(c, [(g1, FullscreenChange(true)), (g2, Intersection([false])),
                    (g3, FullscreenChange(false)), (g4, Intersection([true]))]).expanding == false
    ensures Run(c, [(g1, FullscreenChange(true)), (g2, Intersection([false])),
                    (g3, Intersection([true])), (g4, FullscreenChange(false))]).expanding == false
  {
    var c1 := Step(c, g1, FullscreenChange(true));
    var c2 := Step(c1, g2, Intersection([false]));
    assert !c2.reserved && c2.button.Some?;
    var a := [(g1, FullscreenChange(true)), (g2, Intersection([false])),
              (g3, FullscreenChange(false)), (g4, Intersection([true]))];
    var b := [(g1, FullscreenChange(true)), (g2, Intersection([false])),
              (g3, Intersection([true])), (g4, FullscreenChange(false))];
    assert Run(c, a) == Run(c1, a[1..]) == Run(c2, a[2..]);
    assert Run(c, b) == Run(c1, b[1..]) == Run(c2, b[2..]);
    var c3 := Step(c2, g3, FullscreenChange(false));
    assert !c3.expanding && !c3.reserved;
    assert Run(c2, a[2..]) == Run(c3, a[3..]) == Step(c3, g4, Intersection([true]));
    var c3' := Step(c2, g3, Intersection([true]));
    assert !c3'.expanding && !c3'.reserved;
    assert Run(c2, b[2..]) == Run(c3', b[3..]) == Step(c3', g4, FullscreenChange(false));
  }

  /** A fullscreen change before the button exists throws at `control_button.disabled`: the
      state variables have already moved, but nothing is recomputed. */
  lemma FullscreenWithoutButton(c: Controller, g: Geometry, entered: bool)
    requires c.button.None?
    ensures Step(c, g, FullscreenChange(entered)).styles == c.styles
    ensures Step(c, g, FullscreenChange(entered)).button.None?
    ensures entered ==> Step(c, g, FullscreenChange(entered)).reserved == c.expanding
    ensures !entered ==> Step(c, g, FullscreenChange(entered)).expanding == c.reserved
  {
  }

  /** An intersection callback keeps the button and applies its entries one by one: the last
      entry decides the state when no recomputation threw. */
  lemma {:induction false} IntersectionLastEntryDecides(c: Controller, g: Geometry, entries: seq<bool>)
    requires |entries| > 0 && g.hasVideo
    ensures !entries[|entries| - 1] ==> !OnIntersection(c, g, entries).expanding
    ensures !entries[|entries| - 1] && |entries| >= 2 && !entries[|entries| - 2] ==>
      !OnIntersection(c, g, entries).reserved
    decreases |entries|
  {
    var c1 := if entries[0] then c.(expanding := c.reserved)
              else c.(reserved := c.expanding, expanding := false);
    if |entries| > 1 {
      var st := Recompute(g, c1.expanding, c1.rate, c1.styles).value;
      IntersectionLastEntryDecides(c1.(styles := st), g, entries[1..]);
      assert entries[1..][|entries[1..]| - 1] == entries[|entries| - 1];
      if |entries| >= 3 {
        assert entries[1..][|entries[1..]| - 2] == entries[|entries| - 2];
      }
    }
  }

  /** With no video on the page, the first entry's recompute throws and later entries are lost. */
  lemma IntersectionThrowAbandonsEntries(c: Controller, g: Geometry, entries: seq<bool>)
    requires |entries| > 0 && !g.hasVideo
    ensures OnIntersection(c, g, entries).expanding == (if entries[0] then c.reserved else false)
    ensures OnIntersection(c, g, entries).styles == c.styles
  {
  }
}

=== FILE: text.dfy ===
/** The handful of JavaScript string operations the scripts rely on:
    `String.prototype.trim`, `includes`, `startsWith`, `lastIndexOf` and `toLowerCase`. */
module Text {

  /** The characters `trim` removes: WhiteSpace and LineTerminator of ECMA-262 (section 12.2 and 12.3). */
  predicate IsTrimmable(c: char) {
    || c == ' ' || c == '\t' || c == '\n' || c == '\r'
    || c == '\U{000B}' || c == '\U{000C}' || c == '\U{00A0}' || c == '\U{FEFF}'
    || c == '\U{1680}' || ('\U{2000}' <= c <= '\U{200A}')
    || c == '\U{2028}' || c == '\U{2029}' || c == '\U{202F}' || c == '\U{205F}' || c == '\U{3000}'
  }

  /** Number of trimmable characters at the start of `s`. */
  function LeadingSpace(s: string): (n: nat)
    ensures n <= |s|
    ensures forall k :: 0 <= k < n ==> IsTrimmable(s[k])
    ensures n < |s| ==> !IsTrimmable(s[n])
  {
    if |s| > 0 && IsTrimmable(s[0]) then 1 + LeadingSpace(s[1..]) else 0
  }

  /** Number of trimmable characters at the end of `s`. */
  function TrailingSpace(s: string): (n: nat)
    ensures n <= |s|
    ensures forall k :: |s| - n <= k < |s| ==> IsTrimmable(s[k])
    ensures n < |s| ==> !IsTrimmable(s[|s| - n - 1])
  {
    if |s| > 0 && IsTrimmable(s[|s| - 1]) then 1 + TrailingSpace(s[..|s| - 1]) else 0
  }

  /** `s.trim()`: `s` without its leading and trailing white space. */
  function Trim(s: string): (r: string)
    ensures |r| <= |s|
    ensures |r| > 0 ==> !IsTrimmable(r[0]) && !IsTrimmable(r[|r| - 1])
    ensures LeadingSpace(s) + |r| <= |s| && r == s[LeadingSpace(s)..LeadingSpace(s) + |r|]
    ensures forall k :: LeadingSpace(s) + |r| <= k < |s| ==> IsTrimmable(s[k])
  {
    var n := LeadingSpace(s);
    var t := s[n..];
    var m := |t| - TrailingSpace(t);
    assert t[..m] == s[n..n + m];
    t[..m]
  }

  /** Trimming twice is trimming once. */
  lemma TrimIdempotent(s: string)
    ensures Trim(Trim(s)) == Trim(s)
  {
    var r := Trim(s);
    assert LeadingSpace(r) == 0;
    assert TrailingSpace(r) == 0;
  }

  /** `s.includes(sub)`: `sub` occurs in `s` at some position. */
  predicate Contains(s: string, sub: string) {
    exists i :: 0 <= i <= |s| && sub <= s[i..]
  }

  /** An occurrence at a given position witnesses `Contains`. */
  lemma ContainsAt(s: string, sub: string, i: nat)
    requires i <= |s| && sub <= s[i..]
    ensures Contains(s, sub)
  {
  }

  /** ASCII upper case letters map to lower case; every other character is kept. */
  function LowerChar(c: char): char {
    if 'A' <= c <= 'Z' then (c as int - 'A' as int + 'a' as int) as char else c
  }

  /** `s.toLowerCase()`, restricted to the ASCII letters. */
  function ToLower(s: string): (r: string)
    ensures |r| == |s|
    ensures forall k :: 0 <= k < |s| ==> r[k] == LowerChar(s[k])
  {
    seq(|s|, k requires 0 <= k < |s| => LowerChar(s[k]))
  }

  /** Lowering twice is lowering once. */
  lemma ToLowerIdempotent(s: string)
    ensures ToLower(ToLower(s)) == ToLower(s)
  {
  }

  /** `s.lastIndexOf(c)`: the position of the last `c` in `s`, or -1 when there is none. */
  function LastIndexOf(s: string, c: char): (r: int)
    ensures -1 <= r < |s|
    ensures r >= 0 ==> s[r] == c
    ensures forall k :: r < k < |s| ==> s[k] != c
  {
    if |s| == 0 then -1
    else if s[|s| - 1] == c then |s| - 1
    else LastIndexOf(s[..|s| - 1], c)
  }
}
